=== FILE: README.md ===
# RouterOS API client: protocol engine

This project models the protocol engine of the go-routeros RouterOS API client and proves properties of it in Dafny.

The RouterOS API exchanges *sentences*. A sentence is a list of *words*. Each word is framed by a variable-length length prefix, and a zero-length word ends the sentence. The client sends a command sentence. The device answers with reply sentences, which are classified by their first word: `!re` (data), `!done` (end), `!trap` (error), `!fatal` (fatal error) and `!empty`.

The client works in one of two modes:
- In synchronous mode it reads the reply of each command itself.
- In concurrent ("async") mode a loop reads every sentence and routes it by its `.tag=` to the exchange that owns the tag. An exchange is either a request (`r1`, `r2`, …) or a listen stream (`l1`, …). The loop closes an exchange when its handler finishes. When reading fails, it closes every exchange and drops the registry.

The modules are:
- `Prelude` (prelude.dfy): an option type, bytes, decimal rendering of the tag counter, `strings.Join`, and the UTF-8 bytes of a word.
- `Sentences` (sentence.dfy): the parsed sentence, its attribute lookup and its text.
- `Errors` (errors.dfy): the error values and their messages.
- `Wire` (wire.dfy): the length prefix, and the `Writer` with its sticky error over a sink of bounded room.
- `Replies` (reply.dfy): the reply handler of a request, and the text of a reply.
- `Listen` (listen.dfy): the handler of a listen stream and its cancel command.
- `Dispatch` (dispatch.dfy): one routing step of the loop, a run of steps, and the teardown.
- `Run` (run.dfy): the synchronous read loop as a function of the sentences still to be read, and its closed form.
- `Compat` (compat.dfy): the words `Query` and `Call` send.
- `Clients` (client.dfy): the whole client state, each client operation as a function of that state, and the `Client` class, which performs the same operations in place.

The reader is the sequence of sentences it will still deliver. Once those run out it fails with a fixed error, `Eof` unless the client was closed. The underlying `io.Writer` is a sink that accepts `room` more bytes. A larger write stores the part that fits and reports the sink's failure.

Two behaviours of the loop are worth stating on their own:
- In concurrent mode a `!trap` on a request tag closes that request at once, with its `DeviceError`. The request handler returns "not done" together with an error, and the loop closes an entry on either (async.go:55-61). In synchronous mode the same trap only records the error and reading goes on (run.go:105-107). `Dispatch.TrapClosesAsyncRequest` states this.
- `closeTags` passes the read error to every open exchange, even when the read failed because the client itself was closed (async.go:42-45, async.go:65-73). Only the report on the loop's error channel is suppressed while closing (async.go:32-36).

## Model

| member | source | states |
|---|---|---|
| Prelude.Dec | run.go:49 | the decimal text of the tag counter is non-empty and consists of digits only |
| Prelude.DecInjective | run.go:45-49 | different counter values have different decimal texts |
| Prelude.Join | compat.go:28 | `strings.Join`: no parts give the empty string, and one part gives that part |
| Prelude.Utf8 | proto/writer.go:46-48 | `[]byte(word)`: the encoding of a word takes between one and four bytes per character in total |
| Sentences.Lookup | reply.go:39 | `sen.Map[key]` with its presence flag: absent exactly when no attribute has the key, and otherwise the value of the last attribute with that key |
| Sentences.Get | listen.go:122 | `sen.Map[key]`: a present key reads as the value of its last attribute, and a missing key reads as the empty string |
| Sentences.Render | proto_test.go:177 | the text of a sentence begins with its first word |
| Errors.FetchMessage | error.go:30-36 | a non-empty `message` attribute is returned as is; a missing or empty one gives "unknown error: " followed by the sentence's text |
| Errors.Message | error.go:10-40 | an unknown reply's message is "unknown RouterOS reply word: " followed by the word; a device error's message is "from RouterOS device: " followed by the fetched message |
| Errors.MessagesTellKindsApart | error.go:11-22 | equal messages come from the same kind of error, and two unknown-reply messages are equal only for the same word |
| Errors.AsDevice | proto_test.go:81 | `errors.As`: a DeviceError is found as itself; in a joined error the left side is searched first, and the right side only when the left holds none |
| Errors.UnknownReplyVector | client_test.go:168 | the unknown-reply message of the word `=name` |
| Errors.DeviceMessageVector | client_test.go:189 | a device error carrying message `abc123` reads "from RouterOS device: abc123" |
| Errors.FallbackMessage | error.go:30-36 | a sentence with no `message` attribute at all gets "unknown error: " followed by the sentence's text |
| Errors.BareTrapVector | proto_test.go:309-326 | a trap with only the attribute `some` gives the message text the test expects |
| Wire.EncodeLength | proto/writer.go:71-84 | 1 to 5 bytes for lengths below 0x80, 0x4000, 0x200000 and 0x10000000, and above; the first byte's high bits name the class (exactly 0xF0 for five bytes); the other bytes are the low bytes of the length, most significant first |
| Wire.DecodeLength | proto/reader_test.go:12-21 | a decoder of length prefixes, used as the partner of the encoder; it consumes 1 to 5 bytes |
| Wire.EncodeLengthRoundTrip | proto/writer.go:71-84 | for every length below 2^32, decoding the encoding followed by any bytes gives back the length and the prefix's size |
| Wire.EncodeLengthWraps | proto/writer.go:82 | from 0x10000000 on, the five-byte form keeps only the low 32 bits of the length |
| Wire.EncodeLengthVectors | proto/writer_test.go:15-19 | the five encodings the writer test expects |
| Wire.PutBytesSticky | proto/writer.go:50-53 | once an error is recorded, writing a word changes nothing |
| Wire.PutBytesAppends | proto/writer.go:54-63 | without a recorded error, the length prefix and the word go to the sink; if they fit, nothing is recorded, and otherwise the part that fits is written and the sink's failure is recorded |
| Wire.PutWordsError | proto/writer.go:50-64 | over any run of words, the recorded error only goes from none to the sink's failure, and a writer already in error is left untouched |
| Wire.PutWordsFits | run.go:36-38 | words that fit reach the wire framed, in order, with no error |
| Wire.EndSentenceWritesTerminator | proto/writer.go:32-37 | ending a sentence writes exactly one zero byte |
| Wire.SentenceFits | proto/writer.go:32-37 | a sentence that fits reaches the wire as its framed words and then the terminator |
| Wire.Writer.constructor | proto/writer.go:17-19 | a new writer has written nothing and recorded no error |
| Wire.Writer.Send | proto/writer.go:59 | one write to the sink |
| Wire.Writer.WriteBytes | proto/writer.go:50-64 | `writeBytes`: the new writer state is `PutBytes` of the old |
| Wire.Writer.WriteWord | proto/writer.go:45-48 | `WriteWord`: the new writer state is `PutBytes` of the old with the word's bytes |
| Wire.Writer.WriteWords | run.go:36-38 | the loop writing each word leaves the writer in `PutWords` of its old state |
| Wire.Writer.EndSentence | proto/writer.go:32-37 | writes the empty word and returns the recorded error |
| Replies.DeviceErrorOf | reply.go:38-43 | the error of a trap or fatal sentence is the DeviceError of that sentence alone when it has no `message` attribute, and that DeviceError joined with the decoded message when it has one, even an empty one; `errors.As` finds the sentence in either |
| Replies.ReplyStepClassifies | reply.go:31-50 | `!re` is appended in order; `!done` is recorded and ends cleanly; a trap is an error that does not end the reply, and a fatal is one that does; the empty word is ignored; anything else ends with an unknown-reply error; a clean end happens exactly on `!done`; only `!re` and `!done` change the reply |
| Replies.EmptyWordIsUnknownToRequests | reply.go:46-47 | `!empty` ends a request as an unknown reply |
| Replies.ReTextPrefix | reply.go:18-21 | the text of the first k data sentences begins the text of all of them |
| Replies.ReTextShape | reply.go:16-28 | each data sentence's text stands in order, followed by a newline |
| Replies.TextVectors | proto_test.go:174-178 | an empty reply renders as ""; the reply in the run test renders as that test expects |
| Replies.Reply.constructor | run.go:88 | a new reply is empty |
| Replies.Reply.ProcessSentence | reply.go:31-50 | the new reply and the result are `ReplyStep` of the old reply |
| Replies.Reply.String | reply.go:16-28 | the loop builds exactly the reply's text |
| Run.SyncRead | run.go:82-113 | the read loop never reads more sentences than there are, and reads at least one when there is one |
| Run.SyncReadClosedForm | run.go:91-112 | let k be the first sentence that is not data, a trap or empty. If there is none, the read error is returned and nothing else. A `!done` there returns the reply holding every earlier data sentence in order, and the error of the last earlier trap. A fatal or unknown word there returns no reply and its error |
| Run.EmptySentenceSkipped | run.go:101 | an empty sentence anywhere before the reply does not change the result |
| Run.SyncReadVectors | proto_test.go:223-344 | the run tests: a trap before `!done` is returned beside the reply with its message; fatal, unknown word and end of input give no reply and their errors; an empty sentence is skipped |
| Listen.ListenStepClassifies | listen.go:114-135 | `!re` is queued in order; `!done` and a trap of category 2 end cleanly; any other trap and every fatal end with a DeviceError; the empty word and `!empty` are ignored; anything else ends with an unknown-reply error; the stream goes on exactly for data and ignored sentences |
| Listen.TrapEndsStreamNotRequest | listen.go:121-128 | every trap ends a stream, but no trap ends a request |
| Listen.CancelWords | listen.go:35-37 | the cancel command is `/cancel` followed by `=tag=` and the stream's own tag |
| Listen.ListenReply.constructor | listen.go:79-81 | a new stream has an empty queue and no end |
| Listen.ListenReply.ProcessSentence | listen.go:114-135 | the new stream state and the result are `ListenStep` of the old state |
| Dispatch.Handle | async.go:55 | the handler keeps its kind |
| Dispatch.Route | async.go:48-61 | a sentence for an unregistered tag is dropped; only the sentence's own entry changes; it is removed exactly when its handler finishes or fails, and then closed once with the handler's error |
| Dispatch.TrapClosesAsyncRequest | async.go:55-61 | in concurrent mode a trap closes its request at once, with a DeviceError for that trap |
| Dispatch.DataKeepsEntry | async.go:55-56 | data keeps an exchange registered and closes nothing |
| Dispatch.ForTag | async.go:41-62 | the sentences of one tag all carry that tag and are no more than the input |
| Dispatch.ForTagAppend | async.go:41-62 | the sentences of a tag keep their wire order: filtering a concatenation is concatenating the filtered parts |
| Dispatch.ForTagMembers | async.go:49-53 | a sentence is kept exactly when it is in the input and carries the tag |
| Dispatch.ClosureFor | async.go:75-80 | the closure found for a tag has that tag, and no earlier closure in the log has it: it is the first of its tag; none is found exactly when no closure has the tag |
| Dispatch.UnregisteredStaysAbsent | async.go:48-53 | the loop never registers or closes a tag that was not registered |
| Dispatch.RouteAllIsolates | async.go:41-62 | whatever the interleaving on the wire, each exchange ends live or closed exactly as if it had been fed only its own sentences, in wire order |
| Dispatch.TeardownCount | async.go:65-73 | a teardown closes as many entries as the registry holds |
| Dispatch.ListenCancelTrace | proto_test.go:356-385 | the stream test: the listener ends cleanly with its data queued, the two untagged `!done` are dropped, and the cancel request stays open |
| Dispatch.TeardownOfOne | async.go:65-73 | tearing down a single entry closes exactly that entry with the read error (EOF for the cancel request of the stream test) |
| Dispatch.ListenRenderVector | proto_test.go:380 | the data sentence of the stream test renders as the test expects |
| Compat.QueryPairWords | compat.go:31-35 | one `?<op><key>=<value>` word per pair, in order |
| Compat.AttributeWords | compat.go:46-50 | one `=<key>=<value>` word per parameter, in order |
| Compat.QueryWords | compat.go:25-41 | the command comes first; a proplist word follows exactly when there are properties, and no other word starts with '='; the pair words follow in order; `?#<op>` comes last only when there are pairs and an operator; the count is 1 + [proplist] + pairs + [operator] |
| Compat.CallWords | compat.go:44-52 | the command followed by one attribute word per parameter, 1 + n words |
| Compat.CallIgnoresOperators | compat.go:48 | the parameters' operators do not affect a call |
| Clients.Tag | run.go:49 | a tag is its kind's letter (`r` for a request, `l` for a stream, listen.go:80) followed by the counter's decimal text |
| Clients.TagWord | run.go:50 | the tag word is `.tag=` followed by the tag |
| Clients.TagInjective | run.go:45-49 | a tag determines its kind and its counter value: different counter values, or a request and a stream, never share a tag |
| Clients.FreshTags | run.go:45-63 | the next counter value gives a tag that no registered exchange holds and no closed exchange had, so a tag is never reused over the connection's lifetime |
| Clients.TagVectors | run.go:49 | the counter, incremented before use, gives the tags `r1`, `l1` and `r2` |
| Clients.TakeTag | run.go:45-63 | taking the next tag keeps the invariant whether or not the tag is registered; the tag is in neither the registry nor the closure log |
| Clients.ListenInAsyncMode | listen.go:77-103 | once concurrent mode is on, a stream takes a fresh tag and registers exactly it, or registers nothing and returns the write error or `errAsyncLoopEnded`; the invariant is kept |
| Clients.IssueTag | run.go:63 | registering the newly issued tag keeps every registered tag an issued one |
| Clients.AsyncOnce | async.go:14-28 | the first `Async` turns on concurrent mode with an empty registry and a fresh channel; any later call changes nothing and answers `errAlreadyAsync` |
| Clients.RunArgsRegisters | run.go:32-64 | in concurrent mode a request ends with its tag word and takes a fresh tag, one no registered or closed exchange has. It registers exactly that tag with an empty reply, unless the write failed (then the write error is returned) or the registry is nil (then `errAsyncLoopEnded`), in which case it registers nothing. In synchronous mode nothing is registered and a result is always returned. The invariant is kept |
| Clients.ListenRegisters | listen.go:70-103 | a stream turns concurrent mode on if needed and takes a fresh tag, one no registered or closed exchange has. It registers exactly that tag with an empty stream, or else registers nothing and returns the write error or `errAsyncLoopEnded`. The invariant is kept |
| Clients.DispatchKeepsInv | async.go:48-61 | one loop turn keeps the invariant and changes only the registry and the closures, appending to the latter |
| Clients.DrainStep | async.go:41-62 | reading one sentence and routing it leaves the rest of the loop's work unchanged |
| Clients.DrainedKeepsInv | async.go:40-63 | the whole loop keeps the invariant, only shrinks the registry and only appends closures |
| Clients.RequestsAfterTeardown | run.go:56-61 | after the teardown a request can no longer be registered and gets `errAsyncLoopEnded`; the invariant, closure log included, still holds |
| Clients.RouteKeepsClosed | async.go:55-61 | a loop turn closes only a registered entry and drops it, so every closed exchange had an issued tag, none is closed twice, and none closed is still registered |
| Clients.TeardownKeepsClosed | async.go:65-73 | the teardown closes each registered entry once, so the closure log still holds only issued tags, each closed once |
| Clients.LoopReport | async.go:30-38 | the channel receives nothing when the client is closing, and otherwise exactly the loop's own error |
| Clients.CloseIdempotent | client.go:131-144 | closing twice is the same as closing once; after closing, the loop's error is not reported |
| Clients.CloseOne | async.go:72-73 | `closeTags` closing one more entry keeps every entry closed at most once and as it was |
| Clients.Client.constructor | client.go:37-44 | a new client is synchronous, with no registry and nothing closed |
| Clients.Client.ReadSentence | client_test.go:97-104 | the reader delivers the next sentence, or fails with the read error once none are left |
| Clients.Client.Async | async.go:14-28 | the new client state and the result are `AsyncResult` of the old state |
| Clients.Client.RunSync | run.go:82-113 | the read loop returns what `SyncRead` gives for the sentences it finds, and consumes as many of them as `SyncRead` reads |
| Clients.Client.RunArgs | run.go:32-64 | the new client state and the response are `RunResult` of the old state |
| Clients.Client.RegisterRequest | run.go:43-64 | in concurrent mode: takes the next tag, ends the sentence with it, and registers it with an empty reply only when the write succeeded and the registry is open; otherwise it returns the write error or `errAsyncLoopEnded` and leaves the registry unchanged |
| Clients.Client.Query | compat.go:25-41 | the new state and response are `RunResult` of the old state with `QueryWords` |
| Clients.Client.Call | compat.go:44-52 | the new state and response are `RunResult` of the old state with `CallWords` |
| Clients.Client.ListenArgs | listen.go:70-112 | the new client state, tag and error are `ListenResult` of the old state |
| Clients.Client.Cancel | listen.go:35-37 | the new state and response are `RunResult` of the old state with `CancelWords` of the stream's tag |
| Clients.Client.Dispatch | async.go:48-61 | the new client state is `DispatchResult` of the old state, which routes the sentence with `Route` |
| Clients.Client.CloseTags | async.go:65-80 | every registered entry is closed exactly once, as it was, with the given error, and the registry becomes nil; nothing else changes |
| Clients.Client.AsyncLoop | async.go:40-63 | routes every sentence until reading fails (the state reached is `Drained`, built on `RouteAll`), then tears the registry down with the read error and returns that error |
| Clients.Client.AsyncLoopChan | async.go:30-38 | runs the loop, reports its error on the channel unless closing, and always closes the channel |
| Clients.Client.Close | client.go:131-144 | the new client state is `CloseResult` of the old: marked closing only once, and from then on reads fail |

## Left out

- Transport and authentication are not part of this model:
  - TCP and TLS dialing;
  - the goroutine that watches a context;
  - `Login` and its MD5 and hex challenge;
  - proto/io_context.go.
- Locks and goroutines are left out. Each operation and each turn of the loop is one atomic step. This includes the writer's `BeginSentence` lock and the client mutex.
- The window in `RunArgsContext` between writing a tagged request and registering its tag is not modelled. The model writes and then registers, with no sentence read in between. In the source this window is real: run.go:52 ends the tagged sentence before run.go:56 takes the lock and registers the tag, and the loop drops a sentence whose tag is not registered (async.go:49-53). A reply that arrives in that window is lost, and the request waits until its context ends. Streams are not affected, because listen.go:92-103 holds the lock across the write and the registration.
- Waiting for a context is left out (run.go:67-78 and the goroutine at listen.go:105-109). A request registered in concurrent mode is returned as `Pending(tag)`. Its reply and error are those of the closure the loop records for that tag.
- Registry handlers are held by value. The `asyncReply` and `ListenReply` objects a caller holds are not linked by reference: closing one is recorded in the `closed` log, and the stream's channel is its `queue` sequence.
- The channel capacity (`queueSize`) and blocking on a full channel (listen.go:117) are left out. The queue is an unbounded sequence.
- The proto reader and parser are not part of this model. The sentence `String` and the derivation of `Map` from `List` are only shown by the tests.
- Sentences.Render: does not model Go's `%#q` quoting beyond the plain backquoted form. A value that contains a backquote, a control character or invalid UTF-8 is written by `%#q` in double-quoted, escaped form instead; that quoting lives in code that is not part of this model.
- Prelude.Utf8, Sentences.Sentence: Go words are byte strings and `[]byte(word)` is the identity on them, while the model's words are Unicode strings sent through their UTF-8 encoding. Words and values that are not valid UTF-8, such as the random byte strings of proto_test.go:14-32, cannot be represented, and the framing of such byte strings is not modelled.
- Errors.AsDevice: `decodedDeviceError` and `errors.Join` are kept opaque (`Decoded`, `Joined`). Only the search for a DeviceError inside a joined error is modelled.
- Clients.Client.RunArgs: `incrementTag` is not part of this model. It is modelled as a counter that starts at 0 and is incremented before use, which gives the tags `r1`, `l1` and so on that the tests show (`Clients.TagVectors`).
- The sink behind the writer (`WriterState`, `Emit`) fails only when a write overruns its `room`. A Go `io.Writer` that stores every byte and still returns an error cannot be expressed, although proto/writer.go:60-62 would record that error. The "it fits, so no error" halves of `PutBytesAppends`, `PutWordsFits` and `SentenceFits` therefore hold by construction of the sink.
- Clients.Client.Close: the error reads give after a close is the transport error "use of closed network connection". Writes after a close are not modelled.
- Wire.EncodeLength: negative lengths cannot occur. Lengths of 2^32 and above are truncated to their low 32 bits, as `EncodeLengthWraps` states.
- Only the core entry points are modelled: `RunArgs` and `ListenArgs`, each in one form. The wrappers `Run`, `RunContext`, `Listen`, `ListenContext`, `ListenArgsQueue` and `CancelContext` differ only in context and queue size. The writer's `Printf` and `Err` are also left out.
- errors.go is left out. It is an older duplicate of error.go's types.
- `TestReceive` in client_test.go tests an older `readReply` API. Its expectations are not used, except for the two message texts that error.go still produces.

=== FILE: client.dfy ===
/** The client's request, stream and concurrent-mode operations (run.go,
    listen.go, async.go, client.go). The whole client state is a value,
    `ClientState`; each operation is a function of it, and the `Client`
    class carries out the same operations in place. The reader is the
    sequence of sentences it will still deliver, after which it fails with
    `readErr`. Channels are sequences, and each step of the loop is one
    atomic transition. */
module Clients {
  import opened Prelude
  import opened Sentences
  import opened Errors
  import opened Wire
  import opened Replies
  import opened Listen
  import opened Dispatch
  import opened Run
  import Compat

  /** The first letter of a request's tag and of a stream's tag. */
  const RequestPrefix := 'r'
  const ListenPrefix := 'l'

  /** The tag of the n-th exchange: `fmt.Sprintf("r%d", n)` for a request,
      `fmt.Sprintf("l%d", n)` for a stream. */
  function Tag(prefix: char, n: nat): (t: string)
    ensures |t| >= 2 && t[0] == prefix && t[1..] == Dec(n)
  {
    [prefix] + Dec(n)
  }

  /** The word that tags a sentence. */
  function TagWord(tag: string): (w: string)
    ensures |w| >= 5 && w[..5] == ".tag=" && w[5..] == tag
  {
    ".tag=" + tag
  }

  /** What `RunArgs` gives back: the reply and error of a request that has
      finished, or the tag of a request now registered with the loop, whose
      reply and error are those the loop closes it with. */
  datatype Response = Finished(reply: Option<ReplyState>, err: Option<Error>) | Pending(tag: string)

  /** Everything a `Client` holds. */
  datatype ClientState = ClientState(
    wire: WriterState,        // the writer and what it has sent
    incoming: seq<Sentence>,  // what the reader will still deliver
    readErr: Error,           // what the reader fails with after that
    async: bool,
    tags: Option<Registry>,   // None is the nil map
    nextTag: nat,
    closing: bool,
    closed: seq<Closure>,     // every `closeReply`, in order
    errC: seq<Error>,         // what the loop sent on the channel `Async` made
    errCClosed: bool)

  /** k is a request or stream tag of one of the counter values 1 to n. */
  ghost predicate Issued(k: string, n: nat) {
    exists j :: 1 <= j <= n && (k == Tag(RequestPrefix, j) || k == Tag(ListenPrefix, j))
  }

  /** Every registered tag is a request or stream tag already issued. */
  ghost predicate TagsIssued(m: Registry, n: nat) {
    forall k :: k in m ==> Issued(k, n)
  }

  /** Every closed exchange had a request or stream tag already issued. */
  ghost predicate ClosedIssued(cs: seq<Closure>, n: nat) {
    forall i :: 0 <= i < |cs| ==> Issued(cs[i].tag, n)
  }

  /** No exchange is closed twice, and none that is closed is still
      registered. */
  ghost predicate ClosedOnce(cs: seq<Closure>, tags: Option<Registry>) {
    && (forall i, j :: 0 <= i < j < |cs| ==> cs[i].tag != cs[j].tag)
    && (tags.Some? ==> forall i :: 0 <= i < |cs| ==> cs[i].tag !in tags.value)
  }

  /** What every operation keeps: only concurrent mode has a registry; it
      holds only tags already issued; every closed exchange had an issued
      tag and was closed once, and is no longer registered. */
  ghost predicate Inv(s: ClientState) {
    && (!s.async ==> s.tags.None?)
    && (s.tags.Some? ==> TagsIssued(s.tags.value, s.nextTag))
    && ClosedIssued(s.closed, s.nextTag)
    && ClosedOnce(s.closed, s.tags)
  }

  /** The counter, incremented before use, gives the tags the tests show. */
  lemma TagVectors()
    ensures Tag(RequestPrefix, 1) == "r1" && Tag(ListenPrefix, 1) == "l1" && Tag(RequestPrefix, 2) == "r2"
  {
    assert Dec(1) == "1" && Dec(2) == "2";
  }

  /** A tag determines both its kind and its counter value. */
  lemma TagInjective(p: char, q: char, a: nat, b: nat)
    ensures Tag(p, a) == Tag(q, b) ==> p == q && a == b
  {
    if Tag(p, a) == Tag(q, b) {
      assert Dec(a) == Tag(p, a)[1..];
      DecInjective(a, b);
    }
  }

  /** A tag issued up to n is neither tag of counter value n + 1. */
  lemma IssuedBefore(k: string, n: nat)
    requires Issued(k, n)
    ensures k != Tag(RequestPrefix, n + 1) && k != Tag(ListenPrefix, n + 1)
  {
    var j :| 1 <= j <= n && (k == Tag(RequestPrefix, j) || k == Tag(ListenPrefix, j));
    TagInjective(RequestPrefix, RequestPrefix, j, n + 1);
    TagInjective(RequestPrefix, ListenPrefix, j, n + 1);
    TagInjective(ListenPrefix, RequestPrefix, j, n + 1);
    TagInjective(ListenPrefix, ListenPrefix, j, n + 1);
  }

  /** The next counter value gives a tag that no registered exchange has
      and that no closed exchange had: tags are never reused. */
  lemma FreshTags(m: Registry, cs: seq<Closure>, n: nat)
    requires TagsIssued(m, n) && ClosedIssued(cs, n)
    ensures Tag(RequestPrefix, n + 1) !in m && Tag(ListenPrefix, n + 1) !in m
    ensures forall i :: 0 <= i < |cs| ==> cs[i].tag != Tag(RequestPrefix, n + 1) && cs[i].tag != Tag(ListenPrefix, n + 1)
  {
    forall k | k in m
      ensures k != Tag(RequestPrefix, n + 1) && k != Tag(ListenPrefix, n + 1)
    {
      IssuedBefore(k, n);
    }
    forall i | 0 <= i < |cs|
      ensures cs[i].tag != Tag(RequestPrefix, n + 1) && cs[i].tag != Tag(ListenPrefix, n + 1)
    {
      IssuedBefore(cs[i].tag, n);
    }
  }

  /** Issuing one more tag keeps every closed exchange's tag issued. */
  lemma ClosedIssuedMore(cs: seq<Closure>, n: nat)
    requires ClosedIssued(cs, n)
    ensures ClosedIssued(cs, n + 1)
  {
    forall i | 0 <= i < |cs|
      ensures Issued(cs[i].tag, n + 1)
    {
      IssuedMore(cs[i].tag, n);
    }
  }

  /** A tag issued up to n is issued up to n + 1. */
  lemma IssuedMore(k: string, n: nat)
    requires Issued(k, n)
    ensures Issued(k, n + 1)
  {
    var j :| 1 <= j <= n && (k == Tag(RequestPrefix, j) || k == Tag(ListenPrefix, j));
    assert 1 <= j <= n + 1;
  }

  /** Issuing one more tag and registering it keeps every tag issued. */
  lemma IssueTag(m: Registry, n: nat, t: string, x: Exchange)
    requires TagsIssued(m, n)
    requires t == Tag(RequestPrefix, n + 1) || t == Tag(ListenPrefix, n + 1)
    ensures TagsIssued(m, n + 1) && TagsIssued(m[t := x], n + 1)
  {
    var m2 := m[t := x];
    forall k | k in m2
      ensures Issued(k, n + 1)
    {
      if k != t {
        IssuedMore(k, n);
      }
    }
  }

  /** A smaller registry keeps every tag issued. */
  lemma IssuedSubset(m: Registry, m2: Registry, n: nat)
    requires TagsIssued(m, n) && m2.Keys <= m.Keys
    ensures TagsIssued(m2, n)
  {
  }

  /** `Async`: the first call enters concurrent mode with an empty registry
      and a fresh error channel; a later one only answers `errAlreadyAsync`. */
  function AsyncResult(s: ClientState): (ClientState, Option<Error>) {
    if s.async then (s, Some(AlreadyAsync))
    else (s.(async := true, tags := Some(map[]), errC := [], errCClosed := false), None)
  }

  /** Entering concurrent mode installs an empty registry, once: a second
      call changes nothing and reports `errAlreadyAsync`. */
  lemma AsyncOnce(s: ClientState)
    requires Inv(s)
    ensures var (s1, e1) := AsyncResult(s);
            && Inv(s1) && s1.async
            && (e1.None? <==> !s.async)
            && (!s.async ==> s1.tags == Some(map[]) && s1.errC == [] && !s1.errCClosed)
            && (s.async ==> s1 == s && e1 == Some(AlreadyAsync))
            && AsyncResult(s1) == (s1, Some(AlreadyAsync))
  {
  }

  /** Taking the next tag in concurrent mode keeps the invariant, whether or
      not the tag is then registered, and the tag is fresh: no registered
      exchange has it and no closed one had it. */
  lemma TakeTag(s: ClientState, st: WriterState, t: string, x: Exchange)
    requires Inv(s) && s.async
    requires t == Tag(RequestPrefix, s.nextTag + 1) || t == Tag(ListenPrefix, s.nextTag + 1)
    ensures var s1 := s.(wire := st, nextTag := s.nextTag + 1);
            && Inv(s1)
            && (forall i :: 0 <= i < |s.closed| ==> s.closed[i].tag != t)
            && (s.tags.Some? ==> t !in s.tags.value && Inv(s1.(tags := Some(s.tags.value[t := x]))))
  {
    ClosedIssuedMore(s.closed, s.nextTag);
    if s.tags.Some? {
      FreshTags(s.tags.value, s.closed, s.nextTag);
      IssueTag(s.tags.value, s.nextTag, t, x);
    } else {
      FreshTags(map[], s.closed, s.nextTag);
    }
  }

  /** `RunArgsContext`: write the sentence; then either read its reply
      (synchronous mode) or tag it and register it with the loop. */
  function RunResult(s: ClientState, words: seq<string>): (ClientState, Response) {
    if !s.async then
      var st := PutBytes(PutWords(s.wire, words), Utf8(""));
      if st.err.Some? then (s.(wire := st), Finished(None, st.err))
      else
        var (o, n) := SyncRead(s.incoming, s.readErr, EmptyReply, None);
        (s.(wire := st, incoming := s.incoming[n..]), Finished(o.reply, o.err))
    else
      var t := Tag(RequestPrefix, s.nextTag + 1);
      var st := PutBytes(PutBytes(PutWords(s.wire, words), Utf8(TagWord(t))), Utf8(""));
      var s1 := s.(wire := st, nextTag := s.nextTag + 1);
      if st.err.Some? then (s1, Finished(None, st.err))
      else if s.tags.None? then (s1, Finished(None, Some(AsyncLoopEnded)))
      else (s1.(tags := Some(s.tags.value[t := Request(EmptyReply)])), Pending(t))
  }

  /** A request in concurrent mode ends with its tag word, takes a tag no
      other exchange holds, and registers exactly that tag, unless the
      write failed or the loop has ended, when it registers nothing. In
      synchronous mode it registers nothing and reads its reply. */
  lemma RunArgsRegisters(s: ClientState, words: seq<string>)
    requires Inv(s)
    ensures var (s1, r) := RunResult(s, words);
            && Inv(s1)
            && s1.async == s.async && s1.closed == s.closed && s1.closing == s.closing
            && (!s.async ==> s1.tags == s.tags && s1.nextTag == s.nextTag && r.Finished?)
            && (s.async ==>
                  var t := Tag(RequestPrefix, s.nextTag + 1);
                  && s1.nextTag == s.nextTag + 1 && s1.incoming == s.incoming
                  && s1.wire == PutBytes(PutBytes(PutWords(s.wire, words), Utf8(TagWord(t))), Utf8(""))
                  && (forall i :: 0 <= i < |s.closed| ==> s.closed[i].tag != t)
                  && (r.Pending? <==> s1.wire.err.None? && s.tags.Some?)
                  && (s1.wire.err.Some? ==> r == Finished(None, s1.wire.err))
                  && (r.Pending? ==> r.tag == t && t !in s.tags.value
                                     && s1.tags == Some(s.tags.value[t := Request(EmptyReply)]))
                  && (s.tags.None? && s1.wire.err.None? ==> r == Finished(None, Some(AsyncLoopEnded)))
                  && (r.Finished? ==> s1.tags == s.tags && r.reply.None?))
  {
    if s.async {
      var t := Tag(RequestPrefix, s.nextTag + 1);
      var st := PutBytes(PutBytes(PutWords(s.wire, words), Utf8(TagWord(t))), Utf8(""));
      TakeTag(s, st, t, Request(EmptyReply));
    }
  }

  /** `ListenArgsQueueContext`: enter concurrent mode if need be, write the
      sentence with a new stream tag and register an empty stream under it.
      Gives the stream's tag, or the error. */
  function ListenResult(s: ClientState, words: seq<string>): (ClientState, Option<string>, Option<Error>) {
    var s0 := if s.async then s else AsyncResult(s).0;
    var t := Tag(ListenPrefix, s0.nextTag + 1);
    var st := PutBytes(PutBytes(PutWords(s0.wire, words), Utf8(TagWord(t))), Utf8(""));
    var s1 := s0.(wire := st, nextTag := s0.nextTag + 1);
    if st.err.Some? then (s1, None, st.err)
    else if s0.tags.None? then (s1, None, Some(AsyncLoopEnded))
    else (s1.(tags := Some(s0.tags.value[t := Stream(EmptyStream)])), Some(t), None)
  }

  /** A stream always leaves the client in concurrent mode; it takes a tag
      no other exchange holds and no closed one had, and registers exactly
      that tag, unless the write failed or the loop has ended, when it
      registers nothing. */
  lemma ListenRegisters(s: ClientState, words: seq<string>)
    requires Inv(s)
    ensures var (s1, l, e) := ListenResult(s, words);
            var tags0 := if s.async then s.tags else Some(map[]);
            var t := Tag(ListenPrefix, s.nextTag + 1);
            && Inv(s1) && s1.async
            && s1.nextTag == s.nextTag + 1 && s1.incoming == s.incoming && s1.closed == s.closed
            && s1.wire == PutBytes(PutBytes(PutWords(s.wire, words), Utf8(TagWord(t))), Utf8(""))
            && (forall i :: 0 <= i < |s.closed| ==> s.closed[i].tag != t)
            && (l.Some? <==> e.None?)
            && (s1.wire.err.Some? ==> e == s1.wire.err)
            && (l.Some? <==> s1.wire.err.None? && tags0.Some?)
            && (l.Some? ==> l.value == t && t !in tags0.value
                            && s1.tags == Some(tags0.value[t := Stream(EmptyStream)]))
            && (tags0.None? && s1.wire.err.None? ==> e == Some(AsyncLoopEnded))
            && (l.None? ==> s1.tags == tags0)
  {
    if s.async {
      ListenInAsyncMode(s, words);
    } else {
      var s0 := AsyncResult(s).0;
      AsyncOnce(s);
      assert ListenResult(s, words) == ListenResult(s0, words);
      ListenInAsyncMode(s0, words);
    }
  }

  /** `ListenRegisters` once concurrent mode is on. */
  lemma ListenInAsyncMode(s: ClientState, words: seq<string>)
    requires Inv(s) && s.async
    ensures var (s1, l, e) := ListenResult(s, words);
            var t := Tag(ListenPrefix, s.nextTag + 1);
            && Inv(s1) && s1.async
            && s1.nextTag == s.nextTag + 1 && s1.incoming == s.incoming && s1.closed == s.closed
            && s1.wire == PutBytes(PutBytes(PutWords(s.wire, words), Utf8(TagWord(t))), Utf8(""))
            && (forall i :: 0 <= i < |s.closed| ==> s.closed[i].tag != t)
            && (l.Some? <==> e.None?)
            && (s1.wire.err.Some? ==> e == s1.wire.err)
            && (l.Some? <==> s1.wire.err.None? && s.tags.Some?)
            && (l.Some? ==> l.value == t && t !in s.tags.value
                            && s1.tags == Some(s.tags.value[t := Stream(EmptyStream)]))
            && (s.tags.None? && s1.wire.err.None? ==> e == Some(AsyncLoopEnded))
            && (l.None? ==> s1.tags == s.tags)
  {
    var t := Tag(ListenPrefix, s.nextTag + 1);
    var st := PutBytes(PutBytes(PutWords(s.wire, words), Utf8(TagWord(t))), Utf8(""));
    TakeTag(s, st, t, Stream(EmptyStream));
  }

  /** One turn of the loop after a successful read. With no registry (the
      nil map) every sentence is dropped. */
  function DispatchResult(s: ClientState, sen: Sentence): ClientState {
    match s.tags
    case None => s
    case Some(m) =>
      var (m1, cs) := Route(m, sen);
      s.(tags := Some(m1), closed := s.closed + cs)
  }

  /** A turn of the loop keeps the invariant and changes only the registry
      and the closures. */
  lemma DispatchKeepsInv(s: ClientState, sen: Sentence)
    requires Inv(s)
    ensures var s1 := DispatchResult(s, sen);
            && Inv(s1) && s1 == s.(tags := s1.tags, closed := s1.closed)
            && |s1.closed| >= |s.closed| && s1.closed[..|s.closed|] == s.closed
  {
    if s.tags.Some? {
      IssuedSubset(s.tags.value, Route(s.tags.value, sen).0, s.nextTag);
      RouteKeepsClosed(s.tags.value, s.closed, s.nextTag, sen);
    }
  }

  /** A turn of the loop closes only a registered entry, which it then
      drops: the closure log stays issued and closed once. */
  lemma RouteKeepsClosed(m: Registry, cs: seq<Closure>, n: nat, sen: Sentence)
    requires TagsIssued(m, n) && ClosedIssued(cs, n) && ClosedOnce(cs, Some(m))
    ensures var (m1, c1) := Route(m, sen);
            ClosedIssued(cs + c1, n) && ClosedOnce(cs + c1, Some(m1))
  {
    var (m1, c1) := Route(m, sen);
    if c1 != [] {
      assert sen.tag in m && sen.tag !in m1 && c1 == [Closure(sen.tag, c1[0].exchange, c1[0].err)];
      var cs1 := cs + c1;
      assert cs1[|cs|].tag == sen.tag;
      forall i | 0 <= i < |cs1|
        ensures Issued(cs1[i].tag, n)
      {
        if i < |cs| {
          assert cs1[i] == cs[i];
        }
      }
    } else {
      assert cs + c1 == cs;
    }
  }

  /** A teardown closes each registered entry once: the closure log stays
      issued and closed once. */
  lemma TeardownKeepsClosed(m: Registry, cs: seq<Closure>, added: seq<Closure>, n: nat, err: Error)
    requires TagsIssued(m, n) && ClosedIssued(cs, n) && ClosedOnce(cs, Some(m))
    requires IsTeardown(added, m, err)
    ensures ClosedIssued(cs + added, n) && ClosedOnce(cs + added, None)
  {
    var cs1 := cs + added;
    forall i | 0 <= i < |cs1|
      ensures Issued(cs1[i].tag, n)
    {
      if i < |cs| {
        assert cs1[i] == cs[i];
      } else {
        assert cs1[i] == added[i - |cs|] && cs1[i].tag in m;
      }
    }
    forall i, j | 0 <= i < j < |cs1|
      ensures cs1[i].tag != cs1[j].tag
    {
      if j < |cs| {
        assert cs1[i] == cs[i] && cs1[j] == cs[j];
      } else if i < |cs| {
        assert cs1[i] == cs[i] && cs1[j] == added[j - |cs|];
      } else {
        assert cs1[i] == added[i - |cs|] && cs1[j] == added[j - |cs|];
      }
    }
  }

  /** The loop over every sentence the reader still delivers, before the
      read error that ends it. */
  function Drained(s: ClientState): ClientState {
    match s.tags
    case None => s.(incoming := [])
    case Some(m) =>
      var (m1, cs) := RouteAll(m, s.incoming);
      s.(incoming := [], tags := Some(m1), closed := s.closed + cs)
  }

  /** Reading one sentence and routing it leaves the rest of the loop's
      work unchanged. */
  lemma DrainStep(s: ClientState)
    requires s.incoming != []
    ensures Drained(DispatchResult(s.(incoming := s.incoming[1..]), s.incoming[0])) == Drained(s)
  {
    if s.tags.Some? {
      var (m1, c1) := Route(s.tags.value, s.incoming[0]);
      var (m2, c2) := RouteAll(m1, s.incoming[1..]);
      assert s.closed + c1 + c2 == s.closed + (c1 + c2);
    }
  }

  /** The loop keeps the invariant: its registry only shrinks. */
  lemma {:induction false} DrainedKeepsInv(s: ClientState)
    requires Inv(s)
    ensures var d := Drained(s);
            && Inv(d) && d == s.(incoming := [], tags := d.tags, closed := d.closed)
            && d.tags.Some? == s.tags.Some?
            && (d.tags.Some? ==> d.tags.value.Keys <= s.tags.value.Keys)
            && |d.closed| >= |s.closed| && d.closed[..|s.closed|] == s.closed
    decreases |s.incoming|
  {
    if s.incoming != [] {
      var s1 := DispatchResult(s.(incoming := s.incoming[1..]), s.incoming[0]);
      DispatchKeepsInv(s.(incoming := s.incoming[1..]), s.incoming[0]);
      DrainedKeepsInv(s1);
      DrainStep(s);
      var d := Drained(s);
      assert d.closed[..|s1.closed|] == s1.closed;
      assert d.closed[..|s.closed|] == d.closed[..|s1.closed|][..|s.closed|];
    }
  }

  /** `closeTags(err)` took the client from `before` to `after`: every entry
      of the registry closed once, in some order, with `err`, and the
      registry gone; nothing else changes. */
  ghost predicate TornDown(before: ClientState, after: ClientState, err: Error) {
    && after == before.(tags := None, closed := after.closed)
    && |before.closed| <= |after.closed| && after.closed[..|before.closed|] == before.closed
    && (before.tags.None? ==> after.closed == before.closed)
    && (before.tags.Some? ==> IsTeardown(after.closed[|before.closed|..], before.tags.value, err))
  }

  /** After the teardown no request can be registered: the loop has ended. */
  lemma RequestsAfterTeardown(before: ClientState, after: ClientState, err: Error, words: seq<string>)
    requires Inv(before) && TornDown(before, after, err) && after.async
    ensures Inv(after)
    ensures var (s1, r) := RunResult(after, words);
            s1.tags == None && (s1.wire.err.None? ==> r == Finished(None, Some(AsyncLoopEnded)))
  {
    if before.tags.Some? {
      var added := after.closed[|before.closed|..];
      assert after.closed == before.closed + added;
      TeardownKeepsClosed(before.tags.value, before.closed, added, before.nextTag, err);
    }
  }

  /** What the loop's channel receives when the loop ends with `err`: the
      error, unless the client is closing. */
  function LoopReport(closing: bool, err: Error): (r: seq<Error>)
    ensures r == [] <==> closing
    ensures !closing ==> r == [err]
  {
    if closing then [] else [err]
  }

  /** `Close`: mark the client closing, once, and close the connection, so
      that reading fails from then on. */
  function CloseResult(s: ClientState): ClientState {
    if s.closing then s
    else s.(closing := true, incoming := [], readErr := Transport("use of closed network connection"))
  }

  /** Closing twice is closing once; after closing, the loop's error is not
      reported. */
  lemma CloseIdempotent(s: ClientState)
    ensures CloseResult(CloseResult(s)) == CloseResult(s)
    ensures CloseResult(s).closing && LoopReport(CloseResult(s).closing, CloseResult(s).readErr) == []
    ensures !s.closing ==> CloseResult(s).incoming == []
  {
  }

  /** Part way through `closeTags`: the entries of `m` not yet closed are
      `rest`, and those closed so far, each once and as it was, are `added`. */
  ghost predicate ClosingSome(added: seq<Closure>, rest: Registry, m: Registry, err: Error) {
    && rest.Keys <= m.Keys
    && (forall k :: k in rest ==> rest[k] == m[k])
    && (forall i :: 0 <= i < |added| ==>
          added[i].tag in m && added[i].tag !in rest
          && added[i] == Closure(added[i].tag, m[added[i].tag], Some(err)))
    && (forall i, j :: 0 <= i < j < |added| ==> added[i].tag != added[j].tag)
    && (forall k :: k in m ==> k in rest || exists i :: 0 <= i < |added| && added[i].tag == k)
  }

  /** Closing one more entry. */
  lemma CloseOne(added: seq<Closure>, rest: Registry, m: Registry, err: Error, k: string)
    requires ClosingSome(added, rest, m, err) && k in rest
    ensures |rest - {k}| < |rest|
    ensures ClosingSome(added + [Closure(k, rest[k], Some(err))], rest - {k}, m, err)
  {
    var added' := added + [Closure(k, rest[k], Some(err))];
    var rest' := rest - {k};
    assert rest.Keys == rest'.Keys + {k};
    forall k' | k' in m && k' !in rest'
      ensures exists i :: 0 <= i < |added'| && added'[i].tag == k'
    {
      if k' == k {
        assert added'[|added'| - 1].tag == k';
      } else {
        var i :| 0 <= i < |added| && added[i].tag == k';
        assert added'[i].tag == k';
      }
    }
  }

  /** What the reader gives. */
  datatype Read = Got(sen: Sentence) | ReadFailed(err: Error)

  /** A RouterOS API client over a connection: the writer it sends on, the
      sentences its reader will deliver, and the state of concurrent mode. */
  class Client {
    const w: Writer
    var incoming: seq<Sentence>
    var readErr: Error
    var async: bool
    var tags: Option<Registry>
    var nextTag: nat
    var closing: bool
    var closed: seq<Closure>
    var errC: seq<Error>
    var errCClosed: bool

    function State(): ClientState
      reads this, w
    {
      ClientState(w.State(), incoming, readErr, async, tags, nextTag, closing, closed, errC, errCClosed)
    }

    /** `NewClient`: a client in synchronous mode over the connection. */
    constructor (w: Writer, incoming: seq<Sentence>)
      ensures this.w == w
      ensures State() == ClientState(w.State(), incoming, Eof, false, None, 0, false, [], [], false)
      ensures Inv(State())
    {
      this.w := w;
      this.incoming := incoming;
      readErr := Eof;
      async := false;
      tags := None;
      nextTag := 0;
      closing := false;
      closed := [];
      errC := [];
      errCClosed := false;
    }

    /** `r.ReadSentence()`. */
    method ReadSentence() returns (r: Read)
      modifies this`incoming
      ensures old(incoming) == [] ==> r == ReadFailed(readErr) && incoming == []
      ensures old(incoming) != [] ==> r == Got(old(incoming)[0]) && incoming == old(incoming)[1..]
    {
      if incoming == [] {
        return ReadFailed(readErr);
      }
      r := Got(incoming[0]);
      incoming := incoming[1..];
    }

    /** `Async`: returns `errAlreadyAsync` when concurrent mode was already
        on; otherwise turns it on, and the loop's errors go to `errC`. */
    method Async() returns (already: Option<Error>)
      modifies this`async, this`tags, this`errC, this`errCClosed
      ensures (State(), already) == AsyncResult(old(State()))
    {
      if async {
        return Some(AlreadyAsync);
      }
      async := true;
      tags := Some(map[]);
      errC := [];
      errCClosed := false;
      already := None;
    }

    /** `runArgsContextSync`: end the sentence, then read until the reply
        is settled. */
    method RunSync() returns (res: Response)
      modifies this`incoming, w
      ensures var st := PutBytes(old(w.State()), Utf8(""));
              && w.State() == st
              && (st.err.Some? ==> res == Finished(None, st.err) && incoming == old(incoming))
              && (st.err.None? ==>
                    var (o, n) := SyncRead(old(incoming), readErr, EmptyReply, None);
                    res == Finished(o.reply, o.err) && incoming == old(incoming)[n..])
    {
      var e := w.EndSentence();
      if e.Some? {
        return Finished(None, e);
      }
      ghost var input := incoming;
      ghost var outcome := SyncRead(input, readErr, EmptyReply, None);
      var out := new Reply();
      var lastErr: Option<Error> := None;
      while true
        invariant w.State() == PutBytes(old(w.State()), Utf8(""))
        invariant |incoming| <= |input| && incoming == input[|input| - |incoming|..]
        invariant var (o, n) := SyncRead(incoming, readErr, out.Value(), lastErr);
                  o == outcome.0 && n + (|input| - |incoming|) == outcome.1
        decreases |incoming|
      {
        var r := ReadSentence();
        if r.ReadFailed? {
          return Finished(None, Some(r.err));
        }
        assert input[|input| - |incoming| - 1..][1..] == input[|input| - |incoming|..];
        var done, err := out.ProcessSentence(r.sen);
        if err.Some? && done {
          return Finished(None, err);
        } else if err.Some? {
          lastErr := err;
        } else if done {
          return Finished(Some(out.Value()), lastErr);
        }
      }
    }
  
    /** `RunArgsContext`: a request, with the words of `words`. */
    method RunArgs(words: seq<string>) returns (res: Response)
      modifies this`incoming, this`nextTag, this`tags, w
      ensures (State(), res) == RunResult(old(State()), words)
    {
      w.WriteWords(words);
      if !async {
        res := RunSync();
        return;
      }
      res := RegisterRequest();
    }

    /** The concurrent-mode part of `RunArgsContext`, once the words are
        written: take a tag, end the sentence with it, register it. */
    method RegisterRequest() returns (res: Response)
      requires async
      modifies this`nextTag, this`tags, w
      ensures var s := old(State());
              var t := Tag(RequestPrefix, s.nextTag + 1);
              var st := PutBytes(PutBytes(s.wire, Utf8(TagWord(t))), Utf8(""));
              && w.State() == st && nextTag == s.nextTag + 1
              && (st.err.Some? ==> res == Finished(None, st.err) && tags == s.tags)
              && (st.err.None? && s.tags.None? ==> res == Finished(None, Some(AsyncLoopEnded)) && tags == None)
              && (st.err.None? && s.tags.Some? ==>
                    res == Pending(t) && tags == Some(s.tags.value[t := Request(EmptyReply)]))
    {
      nextTag := nextTag + 1;
      var t := Tag(RequestPrefix, nextTag);
      w.WriteWord(TagWord(t));
      var e := w.EndSentence();
      if e.Some? {
        return Finished(None, e);
      }
      if tags.None? {
        return Finished(None, Some(AsyncLoopEnded));
      }
      tags := Some(tags.value[t := Request(EmptyReply)]);
      res := Pending(t);
    }

    /** `Query`: the request the query's words make. */
    method Query(command: string, q: Compat.Query) returns (res: Response)
      modifies this`incoming, this`nextTag, this`tags, w
      ensures (State(), res) == RunResult(old(State()), Compat.QueryWords(command, q))
    {
      res := RunArgs(Compat.QueryWords(command, q));
    }

    /** `Call`: the request the command and its parameters make. */
    method Call(command: string, params: seq<Compat.Pair>) returns (res: Response)
      modifies this`incoming, this`nextTag, this`tags, w
      ensures (State(), res) == RunResult(old(State()), Compat.CallWords(command, params))
    {
      res := RunArgs(Compat.CallWords(command, params));
    }

    /** `ListenArgsQueueContext`: a stream, with the words of `words`;
        gives the stream's tag, or the error. */
    method ListenArgs(words: seq<string>) returns (tag: Option<string>, err: Option<Error>)
      modifies this`async, this`tags, this`errC, this`errCClosed, this`nextTag, w
      ensures (State(), tag, err) == ListenResult(old(State()), words)
    {
      if !async {
        var _ := Async();
      }
      nextTag := nextTag + 1;
      var t := Tag(ListenPrefix, nextTag);
      w.WriteWords(words);
      w.WriteWord(TagWord(t));
      var e := w.EndSentence();
      if e.Some? {
        return None, e;
      }
      if tags.None? {
        return None, Some(AsyncLoopEnded);
      }
      tags := Some(tags.value[t := Stream(EmptyStream)]);
      return Some(t), None;
    }

    /** `ListenReply.Cancel` of the stream tagged `tag`: a request that
        cancels it. */
    method Cancel(tag: string) returns (res: Response)
      modifies this`incoming, this`nextTag, this`tags, w
      ensures (State(), res) == RunResult(old(State()), CancelWords(tag))
    {
      res := RunArgs(CancelWords(tag));
    }

    /** One turn of `asyncLoop` after a successful read. */
    method Dispatch(sen: Sentence)
      modifies this`tags, this`closed
      ensures State() == DispatchResult(old(State()), sen)
    {
      if tags.None? {
        return;
      }
      var m := tags.value;
      if sen.tag !in m {
        return;
      }
      var x := m[sen.tag];
      var s := Handle(x, sen);
      if s.finished || s.err.Some? {
        tags := Some(m - {sen.tag});
        closed := closed + [Closure(sen.tag, s.state, s.err)];
      } else {
        tags := Some(m[sen.tag := s.state]);
      }
    }

    /** `closeTags(err)`: close every registered exchange with `err`, in
        the map's (unspecified) order, and drop the registry. */
    method CloseTags(err: Error)
      modifies this`tags, this`closed
      ensures TornDown(old(State()), State(), err)
    {
      if tags.None? {
        return;
      }
      var m := tags.value;
      var rest := m;
      var added: seq<Closure> := [];
      while rest != map[]
        invariant ClosingSome(added, rest, m, err)
        invariant closed == old(closed) && tags == old(tags)
        decreases |rest|
      {
        var k :| k in rest;
        CloseOne(added, rest, m, err, k);
        added := added + [Closure(k, rest[k], Some(err))];
        rest := rest - {k};
      }
      assert IsTeardown(added, m, err);
      closed := closed + added;
      tags := None;
      assert closed[|old(closed)|..] == added;
    }

    /** `asyncLoop`: route every sentence read until reading fails, then
        tear the registry down with the read error and return it. */
    method AsyncLoop() returns (err: Error)
      modifies this`incoming, this`tags, this`closed
      ensures err == readErr
      ensures TornDown(Drained(old(State())), State(), err)
    {
      while true
        invariant Drained(State()) == Drained(old(State()))
        decreases |incoming|
      {
        ghost var s := State();
        var r := ReadSentence();
        if r.ReadFailed? {
          assert State() == Drained(State());
          CloseTags(r.err);
          return r.err;
        }
        Dispatch(r.sen);
        DrainStep(s);
      }
    }

    /** `asyncLoopChan`: run the loop; send its error on `errC` unless the
        client is closing; close `errC`. */
    method AsyncLoopChan()
      modifies this`incoming, this`tags, this`closed, this`errC, this`errCClosed
      ensures TornDown(Drained(old(State())), State().(errC := old(errC), errCClosed := old(errCClosed)), readErr)
      ensures errC == old(errC) + LoopReport(closing, readErr) && errCClosed
    {
      var err := AsyncLoop();
      if !closing {
        errC := errC + [err];
      }
      errCClosed := true;
    }

    /** `Close`. */
    method Close()
      modifies this`closing, this`incoming, this`readErr
      ensures State() == CloseResult(old(State()))
    {
      if closing {
        return;
      }
      closing := true;
      incoming := [];
      readErr := Transport("use of closed network connection");
    }
  }
}

=== FILE: compat.dfy ===
/** The word lists the compatibility helpers `Query` and `Call` send
    (compat.go): a command followed by attribute or query words. */
module Compat {
  import opened Prelude

  /** A key-value pair; `op` is the query operator of a query word. */
  datatype Pair = Pair(key: string, value: string, op: string)

  /** A query: its pairs, the operator combining them, and the properties
      to return. */
  datatype Query = Query(pairs: seq<Pair>, op: string, proplist: seq<string>)

  /** The query words of the pairs, in pair order: `?<op><key>=<value>`. */
  function QueryPairWords(pairs: seq<Pair>): (ws: seq<string>)
    ensures |ws| == |pairs|
    ensures forall i :: 0 <= i < |pairs| ==>
              ws[i] == "?" + pairs[i].op + pairs[i].key + "=" + pairs[i].value
  {
    if pairs == [] then []
    else ["?" + pairs[0].op + pairs[0].key + "=" + pairs[0].value] + QueryPairWords(pairs[1..])
  }

  /** The attribute words of the parameters, in order: `=<key>=<value>`. */
  function AttributeWords(params: seq<Pair>): (ws: seq<string>)
    ensures |ws| == |params|
    ensures forall i :: 0 <= i < |params| ==> ws[i] == "=" + params[i].key + "=" + params[i].value
  {
    if params == [] then []
    else ["=" + params[0].key + "=" + params[0].value] + AttributeWords(params[1..])
  }

  /** The sentence `Query` runs. */
  function QueryWords(command: string, q: Query): (ws: seq<string>)
    // the command, then the proplist word if any, the pair words, and the
    // operator word
    ensures |ws| == 1 + (if q.proplist != [] then 1 else 0) + |q.pairs|
                      + (if q.pairs != [] && q.op != "" then 1 else 0)
    ensures ws[0] == command
    // the proplist word stands right after the command exactly when there
    // are properties to return; no other word starts with '='
    ensures q.proplist != [] ==> ws[1] == "=.proplist=" + Join(q.proplist, ",")
    ensures forall i :: 1 <= i < |ws| ==> |ws[i]| > 0 && (ws[i][0] == '=' <==> i == 1 && q.proplist != [])
    // each pair, in order, after it
    ensures var base := if q.proplist != [] then 2 else 1;
            forall i :: 0 <= i < |q.pairs| ==>
              ws[base + i] == "?" + q.pairs[i].op + q.pairs[i].key + "=" + q.pairs[i].value
    // the operator word comes last, and only when it combines some pairs
    ensures q.pairs != [] && q.op != "" ==> ws[|ws| - 1] == "?#" + q.op
    ensures q.pairs == [] ==> |ws| == 1 + (if q.proplist != [] then 1 else 0)
  {
    var head := [command] + (if q.proplist != [] then ["=.proplist=" + Join(q.proplist, ",")] else []);
    if q.pairs == [] then head
    else head + QueryPairWords(q.pairs) + (if q.op != "" then ["?#" + q.op] else [])
  }

  /** The sentence `Call` runs: the command, then one attribute word per
      parameter, in order; the parameters' operators are not used. */
  function CallWords(command: string, params: seq<Pair>): (ws: seq<string>)
    ensures |ws| == 1 + |params|
    ensures ws[0] == command
    ensures forall i :: 0 <= i < |params| ==> ws[1 + i] == "=" + params[i].key + "=" + params[i].value
  {
    [command] + AttributeWords(params)
  }

  /** Operators change nothing in a call. */
  lemma CallIgnoresOperators(command: string, a: seq<Pair>, b: seq<Pair>)
    requires |a| == |b|
    requires forall i :: 0 <= i < |a| ==> a[i].key == b[i].key && a[i].value == b[i].value
    ensures CallWords(command, a) == CallWords(command, b)
  {
  }
}

=== FILE: dispatch.dfy ===
/** The tag-routing dispatcher of concurrent mode (async.go), on values: the
    registry maps each outstanding tag to its exchange; a sentence goes to
    the exchange named by its tag, and an exchange whose handler finishes is
    removed and closed. The loop, the registry's owner and its teardown are
    the Client's (client.dfy); this module holds what one step does and what
    a run of steps does to each tag. */
module Dispatch {
  import opened Prelude
  import opened Sentences
  import opened Errors
  import opened Replies
  import opened Listen

  /** A registered handler: an `asyncReply` of a request, or a `ListenReply`. */
  datatype Exchange = Request(reply: ReplyState) | Stream(stream: ListenState)

  /** `r.processSentence(sen)`, by the kind of handler. */
  function Handle(x: Exchange, sen: Sentence): (s: Step<Exchange>)
    ensures s.state.Request? == x.Request?
  {
    match x
    case Request(r) =>
      var s := ReplyStep(r, sen);
      Step(Request(s.state), s.finished, s.err)
    case Stream(l) =>
      var s := ListenStep(l, sen);
      Step(Stream(s.state), s.finished, s.err)
  }

  /** `closeReply(r, err)` of one registry entry: the handler as it was left
      and the error its caller receives. */
  datatype Closure = Closure(tag: string, exchange: Exchange, err: Option<Error>)

  type Registry = map<string, Exchange>

  /** One turn of `asyncLoop` after a successful read: the new registry and
      the entries closed by this sentence. */
  function Route(tags: Registry, sen: Sentence): (r: (Registry, seq<Closure>))
    // a sentence for a tag that is not registered is dropped
    ensures sen.tag !in tags ==> r == (tags, [])
    // only the sentence's own entry can change or go
    ensures r.0.Keys <= tags.Keys && r.0.Keys >= tags.Keys - {sen.tag}
    ensures forall k :: k in tags && k != sen.tag ==> r.0[k] == tags[k]
    // an entry is removed exactly when it is closed, and then with the
    // handler's error
    ensures sen.tag in tags ==>
              var s := Handle(tags[sen.tag], sen);
              && (sen.tag !in r.0 <==> s.finished || s.err.Some?)
              && (sen.tag !in r.0 ==> r.1 == [Closure(sen.tag, s.state, s.err)])
              && (sen.tag in r.0 ==> r.0[sen.tag] == s.state && r.1 == [])
  {
    if sen.tag !in tags then (tags, [])
    else
      var s := Handle(tags[sen.tag], sen);
      if s.finished || s.err.Some? then (tags - {sen.tag}, [Closure(sen.tag, s.state, s.err)])
      else (tags[sen.tag := s.state], [])
  }

  /** `asyncLoop` over sentences that were all read successfully, in read
      order: the registry at the end and the entries closed, in order. */
  function RouteAll(tags: Registry, s: seq<Sentence>): (Registry, seq<Closure>)
    decreases |s|
  {
    if s == [] then (tags, [])
    else
      var (m1, c1) := Route(tags, s[0]);
      var (m2, c2) := RouteAll(m1, s[1..]);
      (m2, c1 + c2)
  }

  /** In async mode a `!trap` closes a request at once, with its
      DeviceError, although a synchronous request reads on after it. */
  lemma TrapClosesAsyncRequest(tags: Registry, sen: Sentence)
    requires sen.tag in tags && tags[sen.tag].Request? && sen.word == TrapWord
    ensures var (m, cs) := Route(tags, sen);
            && sen.tag !in m && |cs| == 1 && cs[0].tag == sen.tag
            && cs[0].exchange == tags[sen.tag] && cs[0].err.Some?
            && AsDevice(cs[0].err.value) == Some(sen)
  {
  }

  /** Data keeps an exchange registered. */
  lemma DataKeepsEntry(tags: Registry, sen: Sentence)
    requires sen.tag in tags && sen.word == ReWord
    ensures var (m, cs) := Route(tags, sen);
            sen.tag in m && cs == []
  {
  }

  /** The sentences of one tag, in wire order. */
  function ForTag(s: seq<Sentence>, t: string): (r: seq<Sentence>)
    ensures |r| <= |s|
    ensures forall i :: 0 <= i < |r| ==> r[i].tag == t
  {
    if s == [] then []
    else (if s[0].tag == t then [s[0]] else []) + ForTag(s[1..], t)
  }

  /** Filtering by tag distributes over concatenation: the sentences of a
      tag keep their wire order. */
  lemma {:induction false} ForTagAppend(a: seq<Sentence>, b: seq<Sentence>, t: string)
    ensures ForTag(a + b, t) == ForTag(a, t) + ForTag(b, t)
    decreases |a|
  {
    if a == [] {
      assert a + b == b;
    } else {
      assert (a + b)[0] == a[0] && (a + b)[1..] == a[1..] + b;
      ForTagAppend(a[1..], b, t);
    }
  }

  /** Exactly the sentences of the tag are kept. */
  lemma {:induction false} ForTagMembers(s: seq<Sentence>, t: string, x: Sentence)
    ensures x in ForTag(s, t) <==> x in s && x.tag == t
    decreases |s|
  {
    if s != [] {
      ForTagMembers(s[1..], t, x);
      assert s == [s[0]] + s[1..];
    }
  }

  /** What became of one exchange. */
  datatype Fate = Live(x: Exchange) | Closed(x: Exchange, err: Option<Error>) | Absent

  /** One exchange fed its own sentences in order until its handler finishes;
      what follows is never seen by it. */
  function Feed(x: Exchange, s: seq<Sentence>): Fate
    decreases |s|
  {
    if s == [] then Live(x)
    else
      var st := Handle(x, s[0]);
      if st.finished || st.err.Some? then Closed(st.state, st.err) else Feed(st.state, s[1..])
  }

  /** The first closure of tag t, if any. */
  function ClosureFor(cs: seq<Closure>, t: string): (r: Option<Closure>)
    ensures r.Some? ==> r.value in cs && r.value.tag == t
    ensures r.Some? ==> exists i :: 0 <= i < |cs| && cs[i] == r.value
                                    && forall j :: 0 <= j < i ==> cs[j].tag != t
    ensures r.None? ==> forall i :: 0 <= i < |cs| ==> cs[i].tag != t
  {
    if cs == [] then None else if cs[0].tag == t then Some(cs[0]) else ClosureFor(cs[1..], t)
  }

  /** What a registry and a log of closures say about tag t. */
  function FateOf(tags: Registry, cs: seq<Closure>, t: string): Fate {
    if t in tags then Live(tags[t])
    else match ClosureFor(cs, t)
      case Some(c) => Closed(c.exchange, c.err)
      case None => Absent
  }

  /** A tag that is not registered is never registered or closed by the loop. */
  lemma {:induction false} UnregisteredStaysAbsent(tags: Registry, s: seq<Sentence>, t: string)
    requires t !in tags
    ensures t !in RouteAll(tags, s).0 && ClosureFor(RouteAll(tags, s).1, t).None?
    decreases |s|
  {
    if s != [] {
      var (m1, c1) := Route(tags, s[0]);
      UnregisteredStaysAbsent(m1, s[1..], t);
    }
  }

  /** Tag isolation: whatever the interleaving on the wire, each registered
      exchange ends up exactly as if it had been fed only the sentences
      carrying its own tag, in wire order. */
  lemma {:induction false} RouteAllIsolates(tags: Registry, s: seq<Sentence>, t: string)
    requires t in tags
    ensures var (m, cs) := RouteAll(tags, s);
            FateOf(m, cs, t) == Feed(tags[t], ForTag(s, t))
    decreases |s|
  {
    if s != [] {
      var (m1, c1) := Route(tags, s[0]);
      var (m2, c2) := RouteAll(m1, s[1..]);
      assert RouteAll(tags, s) == (m2, c1 + c2);
      if s[0].tag == t {
        assert ForTag(s, t) == [s[0]] + ForTag(s[1..], t);
        var st := Handle(tags[t], s[0]);
        if st.finished || st.err.Some? {
          UnregisteredStaysAbsent(m1, s[1..], t);
          assert (c1 + c2)[0] == c1[0];
        } else {
          RouteAllIsolates(m1, s[1..], t);
          assert c1 + c2 == c2;
        }
      } else {
        assert ForTag(s, t) == ForTag(s[1..], t);
        RouteAllIsolates(m1, s[1..], t);
        if t !in m2 {
          ClosureSkip(c1, c2, t);
        }
      }
    }
  }

  /** Closures of other tags in front do not hide the first one of t. */
  lemma ClosureSkip(c1: seq<Closure>, c2: seq<Closure>, t: string)
    requires forall i :: 0 <= i < |c1| ==> c1[i].tag != t
    ensures ClosureFor(c1 + c2, t) == ClosureFor(c2, t)
    decreases |c1|
  {
    if c1 != [] {
      assert (c1 + c2)[0] == c1[0] && (c1 + c2)[1..] == c1[1..] + c2;
      ClosureSkip(c1[1..], c2, t);
    } else {
      assert c1 + c2 == c2;
    }
  }

  /** `closeTags(err)` closing the entries of `tags`, in any order: every
      entry exactly once, as it was, with the read error. */
  ghost predicate IsTeardown(added: seq<Closure>, tags: Registry, err: Error) {
    && (forall i :: 0 <= i < |added| ==>
          added[i].tag in tags && added[i] == Closure(added[i].tag, tags[added[i].tag], Some(err)))
    && (forall i, j :: 0 <= i < j < |added| ==> added[i].tag != added[j].tag)
    && (forall k :: k in tags ==> exists i :: 0 <= i < |added| && added[i].tag == k)
  }

  /** A teardown closes as many entries as the registry holds. */
  lemma TeardownCount(added: seq<Closure>, tags: Registry, err: Error)
    requires IsTeardown(added, tags, err)
    ensures |added| == |tags|
  {
    var keys := set i | 0 <= i < |added| :: added[i].tag;
    assert keys == tags.Keys;
    IndexSetSize(added);
  }

  /** Distinct tags at distinct places: as many tags as closures. */
  lemma {:induction false} IndexSetSize(added: seq<Closure>)
    requires forall i, j :: 0 <= i < j < |added| ==> added[i].tag != added[j].tag
    ensures |set i | 0 <= i < |added| :: added[i].tag| == |added|
    decreases |added|
  {
    if added != [] {
      var n := |added|;
      var init := added[..n - 1];
      IndexSetSize(init);
      var s1 := set i | 0 <= i < |init| :: init[i].tag;
      var s := set i | 0 <= i < n :: added[i].tag;
      assert s == s1 + {added[n - 1].tag};
      assert added[n - 1].tag !in s1;
    }
  }

  /** The stream test, routed: a stream `l1` and the request `r2` that
      cancels it are registered; the device sends data for `l1`, the trap
      of an interrupted command for `l1`, and two `!done` sentences whose
      `tag` is an attribute, so that they carry no tag. The stream ends
      cleanly with the data queued, the two `!done` are dropped, and the
      request stays open (see `TeardownOfOne` for how it is closed). */
  lemma ListenCancelTrace(re: Sentence, trap: Sentence, done2: Sentence, done1: Sentence)
    requires re == Sentence(ReWord, "l1", [Pair("address", "1.2.3.4/32")])
    requires trap == Sentence(TrapWord, "l1", [Pair("category", "2")])
    requires done2 == Sentence(DoneWord, "", [Pair("tag", "r2")])
    requires done1 == Sentence(DoneWord, "", [Pair("tag", "l1")])
    ensures var m := map["l1" := Stream(EmptyStream), "r2" := Request(EmptyReply)];
            RouteAll(m, [re, trap, done2, done1])
            == (map["r2" := Request(EmptyReply)], [Closure("l1", Stream(ListenState([re], Some(trap))), None)])
  {
    var m := map["l1" := Stream(EmptyStream), "r2" := Request(EmptyReply)];
    var m1 := map["l1" := Stream(ListenState([re], None)), "r2" := Request(EmptyReply)];
    var m2 := map["r2" := Request(EmptyReply)];
    var c := Closure("l1", Stream(ListenState([re], Some(trap))), None);
    assert "" !in m2 && "" !in m1;
    assert RouteAll(m2, [done1]) == (m2, []) by {
      assert [done1][1..] == [];
      assert Route(m2, done1) == (m2, []);
      assert RouteAll(m2, []) == (m2, []);
      var none: seq<Closure> := [];
      assert none + none == none;
    }
    assert RouteAll(m2, [done2, done1]) == (m2, []) by {
      assert [done2, done1][1..] == [done1];
      assert Route(m2, done2) == (m2, []);
    }
    assert Route(m1, trap) == (m2, [c]) by {
      assert Get(trap, "category") == "2";
      assert m1 - {"l1"} == m2;
    }
    assert RouteAll(m1, [trap, done2, done1]) == (m2, [c]) by {
      assert [trap, done2, done1][1..] == [done2, done1];
      assert [c] + [] == [c];
    }
    assert Route(m, re) == (m1, []) by {
      assert EmptyStream.queue + [re] == [re];
      assert m["l1" := Stream(ListenState([re], None))] == m1;
    }
    assert [] + [c] == [c];
    assert [re, trap, done2, done1][1..] == [trap, done2, done1];
  }

  /** A teardown of a registry of one entry closes exactly that entry,
      with the read error: in the stream test, the cancel request `r2`
      receives EOF. */
  lemma TeardownOfOne(added: seq<Closure>, t: string, x: Exchange, err: Error)
    requires IsTeardown(added, map[t := x], err)
    ensures added == [Closure(t, x, Some(err))]
  {
    TeardownCount(added, map[t := x], err);
  }

  /** The data sentence of the stream test renders as the test expects. */
  lemma ListenRenderVector(re: Sentence)
    requires re == Sentence(ReWord, "l1", [Pair("address", "1.2.3.4/32")])
    ensures Render(re) == "!re @l1 [{`address` `1.2.3.4/32`}]"
  {
    assert PairsText(re.list) == "{`address` `1.2.3.4/32`}";
  }
}

=== FILE: errors.dfy ===
/** The engine's error values (error.go) and their messages. Errors coming
    from the transport and from code outside this model are kept opaque. */
module Errors {
  import opened Prelude
  import opened Sentences

  datatype Error =
    | Eof                                 // io.EOF from the reader
    | Transport(reason: string)           // any other transport failure
    | AlreadyAsync                        // errAlreadyAsync
    | AsyncLoopEnded                      // errAsyncLoopEnded
    | UnknownReply(sentence: Sentence)    // *UnknownReplyError
    | Device(sentence: Sentence)          // *DeviceError
    | Decoded(message: string)            // decodedDeviceError(msg), opaque here
    | Joined(first: Error, second: Error) // errors.Join(first, second)

  const AlreadyAsyncText := "method Async() has already been called"
  const AsyncLoopEndedText := "method Async(): loop has ended - probably read error"
  const UnknownReplyPrefix := "unknown RouterOS reply word: "
  const DevicePrefix := "from RouterOS device: "
  const UnknownErrorPrefix := "unknown error: "

  /** `DeviceError.fetchMessage`: the sentence's non-empty `message`
      attribute, otherwise a text built from the whole sentence (also when
      the attribute is present but empty). */
  function FetchMessage(sen: Sentence): (m: string)
    ensures forall v :: Lookup(sen.list, "message") == Some(v) && v != "" ==> m == v
    ensures Lookup(sen.list, "message") in {None, Some("")} ==> m == UnknownErrorPrefix + Render(sen)
  {
    var v := Get(sen, "message");
    if v != "" then v else UnknownErrorPrefix + Render(sen)
  }

  /** `Error()` of the error kinds error.go defines. */
  function Message(e: Error): (s: string)
    requires e.AlreadyAsync? || e.AsyncLoopEnded? || e.UnknownReply? || e.Device?
    ensures e.UnknownReply? ==> |s| >= |UnknownReplyPrefix| && s[..|UnknownReplyPrefix|] == UnknownReplyPrefix
                                && s[|UnknownReplyPrefix|..] == e.sentence.word
    ensures e.Device? ==> |s| >= |DevicePrefix| && s[..|DevicePrefix|] == DevicePrefix
                          && s[|DevicePrefix|..] == FetchMessage(e.sentence)
  {
    match e
    case AlreadyAsync => AlreadyAsyncText
    case AsyncLoopEnded => AsyncLoopEndedText
    case UnknownReply(sen) => UnknownReplyPrefix + sen.word
    case Device(sen) => DevicePrefix + FetchMessage(sen)
  }

  /** The four kinds never share a message: the text tells which kind it is. */
  lemma MessagesTellKindsApart(a: Error, b: Error)
    requires a.AlreadyAsync? || a.AsyncLoopEnded? || a.UnknownReply? || a.Device?
    requires b.AlreadyAsync? || b.AsyncLoopEnded? || b.UnknownReply? || b.Device?
    requires Message(a) == Message(b)
    ensures a.AlreadyAsync? == b.AlreadyAsync? && a.AsyncLoopEnded? == b.AsyncLoopEnded?
    ensures a.UnknownReply? == b.UnknownReply? && a.Device? == b.Device?
    ensures a.UnknownReply? ==> a.sentence.word == b.sentence.word
  {
    var ma, mb := Message(a), Message(b);
    assert ma[0] == mb[0];
    assert AlreadyAsyncText[14] == ' ' && AsyncLoopEndedText[14] == ':';
    if a.UnknownReply? && b.UnknownReply? {
      assert ma[|UnknownReplyPrefix|..] == mb[|UnknownReplyPrefix|..];
    }
  }

  /** `errors.As(err, &devErr)`: the first DeviceError found, searching a
      joined error left to right. */
  function AsDevice(e: Error): (r: Option<Sentence>)
    ensures r.Some? ==> e.Device? || e.Joined?
    ensures e.Device? ==> r == Some(e.sentence)
    // a joined error is searched left side first
    ensures e.Joined? && AsDevice(e.first).Some? ==> r == AsDevice(e.first)
    ensures e.Joined? && AsDevice(e.first).None? ==> r == AsDevice(e.second)
  {
    match e
    case Device(sen) => Some(sen)
    case Joined(a, b) => if AsDevice(a).Some? then AsDevice(a) else AsDevice(b)
    case _ => None
  }

  /** An unknown first word is named in the message, as the tests expect. */
  lemma UnknownReplyVector(named: Sentence)
    requires named == Sentence("=name", "", [])
    ensures Message(UnknownReply(named)) == "unknown RouterOS reply word: =name"
  {
  }

  /** A device message is shown as sent, as the tests expect. */
  lemma DeviceMessageVector(trap: Sentence)
    requires trap == Sentence("!trap", "", [Pair("message", "abc123")])
    ensures Message(Device(trap)) == "from RouterOS device: abc123"
  {
    assert Lookup(trap.list, "message") == Some("abc123");
  }

  /** A trap without a message is rendered whole, as the tests expect. */
  lemma BareTrapVector(bare: Sentence)
    requires bare == Sentence("!trap", "", [Pair("some", "unknown key")])
    ensures FetchMessage(bare) == "unknown error: !trap @ [{`some` `unknown key`}]"
  {
    assert bare.list[0].key != "message";
    FallbackMessage(bare);
    BareTrapRender(bare);
  }

  /** A sentence with no `message` attribute at all gets the fallback
      text built from the whole sentence. */
  lemma FallbackMessage(bare: Sentence)
    requires forall i :: 0 <= i < |bare.list| ==> bare.list[i].key != "message"
    ensures FetchMessage(bare) == UnknownErrorPrefix + Render(bare)
  {
  }

  lemma BareTrapRender(bare: Sentence)
    requires bare == Sentence("!trap", "", [Pair("some", "unknown key")])
    ensures Render(bare) == "!trap @ [{`some` `unknown key`}]"
  {
    assert PairsText(bare.list) == "{`some` `unknown key`}";
  }
}

=== FILE: listen.dfy ===
/** The stream handler of a listen command (listen.go): it queues the data
    sentences and ends on a terminal sentence, a trap or a fatal error. */
module Listen {
  import opened Prelude
  import opened Sentences
  import opened Errors
  import opened Replies

  /** The value of a `ListenReply`: the sentences delivered on its channel,
      in order, and the sentence that ended the stream cleanly. */
  datatype ListenState = ListenState(queue: seq<Sentence>, done: Option<Sentence>)

  const EmptyStream := ListenState([], None)

  /** A trap that reports an interrupted command, as `/cancel` causes. */
  predicate IsInterrupted(sen: Sentence) {
    Get(sen, "category") == "2"
  }

  /** `ListenReply.processSentence`. */
  function ListenStep(l: ListenState, sen: Sentence): Step<ListenState> {
    if sen.word == ReWord then Step(l.(queue := l.queue + [sen]), false, None)
    else if sen.word == DoneWord then Step(l.(done := Some(sen)), true, None)
    else if sen.word == TrapWord then
      if IsInterrupted(sen) then Step(l.(done := Some(sen)), true, None)
      else Step(l, true, Some(Device(sen)))
    else if sen.word == FatalWord then Step(l, true, Some(Device(sen)))
    else if sen.word == "" || sen.word == EmptyWord then Step(l, false, None)
    else Step(l, true, Some(UnknownReply(sen)))
  }

  /** How the stream handler classifies a sentence by its first word. */
  lemma ListenStepClassifies(l: ListenState, sen: Sentence)
    ensures var s := ListenStep(l, sen);
            // data goes to the queue, in arrival order
            && (sen.word == ReWord ==> s == Step(ListenState(l.queue + [sen], l.done), false, None))
            // `!done`, and a trap of category 2, end the stream cleanly
            && (sen.word == DoneWord || (sen.word == TrapWord && IsInterrupted(sen)) ==>
                  s == Step(ListenState(l.queue, Some(sen)), true, None))
            // any other trap, and every fatal, end it with a DeviceError
            && ((sen.word == TrapWord && !IsInterrupted(sen)) || sen.word == FatalWord ==>
                  s == Step(l, true, Some(Device(sen))))
            // empty sentences and `!empty` are ignored
            && (sen.word in {"", EmptyWord} ==> s == Step(l, false, None))
            // anything else is an unknown reply that ends the stream
            && (sen.word !in {ReWord, DoneWord, TrapWord, FatalWord, "", EmptyWord} ==>
                  s == Step(l, true, Some(UnknownReply(sen))))
            // the stream goes on exactly for data and ignored sentences
            && (!s.finished <==> sen.word in {ReWord, "", EmptyWord})
            // whenever it goes on, no error is reported
            && (!s.finished ==> s.err.None?)
  {
  }

  /** Unlike a request, a stream is ended by every trap. */
  lemma TrapEndsStreamNotRequest(l: ListenState, r: ReplyState, sen: Sentence)
    requires sen.word == TrapWord
    ensures ListenStep(l, sen).finished
    ensures !ReplyStep(r, sen).finished && ReplyStep(r, sen).err.Some?
  {
  }

  /** The words of `ListenReply.Cancel`: the cancel command naming the
      stream's own tag. */
  function CancelWords(tag: string): (ws: seq<string>)
    ensures |ws| == 2 && ws[0] == "/cancel"
    ensures |ws[1]| >= 5 && ws[1][..5] == "=tag=" && ws[1][5..] == tag
  {
    ["/cancel", "=tag=" + tag]
  }

  /** `ListenReply`: the stream's queue (its bounded channel, as the
      sequence of what was sent on it) and its terminal sentence. */
  class ListenReply {
    var queue: seq<Sentence>
    var done: Option<Sentence>
    const tag: string

    function Value(): ListenState
      reads this
    {
      ListenState(queue, done)
    }

    constructor (tag: string)
      ensures Value() == EmptyStream && this.tag == tag
    {
      queue := [];
      done := None;
      this.tag := tag;
    }

    /** `processSentence`. */
    method ProcessSentence(sen: Sentence) returns (finished: bool, err: Option<Error>)
      modifies this
      ensures Step(Value(), finished, err) == ListenStep(old(Value()), sen)
    {
      if sen.word == ReWord {
        queue := queue + [sen];
      } else if sen.word == DoneWord {
        done := Some(sen);
        return true, None;
      } else if sen.word == TrapWord {
        if Get(sen, "category") == "2" {
          done := Some(sen);
          return true, None;
        }
        return true, Some(Device(sen));
      } else if sen.word == FatalWord {
        return true, Some(Device(sen));
      } else if sen.word == "" || sen.word == EmptyWord {
        // empty sentences are ignored
      } else {
        return true, Some(UnknownReply(sen));
      }
      return false, None;
    }
  }
}

=== FILE: prelude.dfy ===
/** Small helpers shared by the other modules: Go's byte, an option type,
    decimal formatting (fmt's %d), strings.Join and the UTF-8 form of a
    string (Go's []byte(s)). */
module Prelude {

  datatype Option<+T> = None | Some(value: T)

  /** An octet, as Go's `byte`. */
  type byte = x: int | 0 <= x < 0x100

  /** Go's conversion `byte(x)` of a non-negative integer: keep the low 8 bits. */
  function Byte(x: nat): (b: byte)
    ensures x < 0x100 ==> b == x
  {
    x % 0x100
  }

  function Digit(d: nat): (c: char)
    requires d < 10
    ensures '0' <= c <= '9'
  {
    ('0' as int + d) as char
  }

  /** The decimal rendering of `n`, as `fmt.Sprintf("%d", n)`. */
  function Dec(n: nat): (s: string)
    ensures 1 <= |s|
    ensures forall i :: 0 <= i < |s| ==> '0' <= s[i] <= '9'
  {
    if n < 10 then [Digit(n)] else Dec(n / 10) + [Digit(n % 10)]
  }

  /** Different numbers have different decimal renderings. */
  lemma {:induction false} DecInjective(a: nat, b: nat)
    requires Dec(a) == Dec(b)
    ensures a == b
  {
    if 10 <= a && 10 <= b {
      var sa, sb := Dec(a), Dec(b);
      assert sa[|sa| - 1] == Digit(a % 10) && sb[|sb| - 1] == Digit(b % 10);
      assert Dec(a / 10) == sa[..|sa| - 1] == sb[..|sb| - 1] == Dec(b / 10);
      DecInjective(a / 10, b / 10);
    } else if a < 10 && b < 10 {
      assert Dec(a)[0] == Digit(a) && Dec(b)[0] == Digit(b);
    }
  }

  /** `strings.Join(parts, sep)`. */
  function Join(parts: seq<string>, sep: string): (s: string)
    ensures parts == [] ==> s == ""
    ensures |parts| == 1 ==> s == parts[0]
  {
    if parts == [] then ""
    else if |parts| == 1 then parts[0]
    else parts[0] + sep + Join(parts[1..], sep)
  }

  /** The UTF-8 encoding of one Unicode scalar value. */
  function EncodeRune(c: char): (r: seq<byte>)
    ensures 1 <= |r| <= 4
    ensures (|r| == 1) == (c as int < 0x80)
  {
    var n := c as int;
    if n < 0x80 then [n]
    else if n < 0x800 then [0xC0 + n / 0x40, 0x80 + n % 0x40]
    else if n < 0x10000 then [0xE0 + n / 0x1000, 0x80 + (n / 0x40) % 0x40, 0x80 + n % 0x40]
    else [0xF0 + n / 0x40000, 0x80 + (n / 0x1000) % 0x40, 0x80 + (n / 0x40) % 0x40, 0x80 + n % 0x40]
  }

  /** The bytes of a Go string holding the UTF-8 form of `s`: `[]byte(s)`. */
  function Utf8(s: string): (r: seq<byte>)
    ensures |s| <= |r| <= 4 * |s|
  {
    if s == [] then [] else EncodeRune(s[0]) + Utf8(s[1..])
  }
}

=== FILE: reply.dfy ===
/** The reply assembler of one request (reply.go): the classification of
    each incoming sentence by its first word, and the text of a Reply. */
module Replies {
  import opened Prelude
  import opened Sentences
  import opened Errors

  const ReWord := "!re"
  const DoneWord := "!done"
  const TrapWord := "!trap"
  const FatalWord := "!fatal"
  const EmptyWord := "!empty"

  /** The value of a `Reply`: the data sentences so far and the terminal one. */
  datatype ReplyState = ReplyState(re: seq<Sentence>, done: Option<Sentence>)

  const EmptyReply := ReplyState([], None)

  /** What a sentence handler returns, with the handler's new state:
      `finished` is the `done` result of `processSentence`. */
  datatype Step<S> = Step(state: S, finished: bool, err: Option<Error>)

  /** The error a `!trap` or `!fatal` sentence yields: a DeviceError, joined
      with the decoded form of its `message` attribute when it has one. */
  function DeviceErrorOf(sen: Sentence): (e: Error)
    ensures AsDevice(e) == Some(sen)
    // without a message the DeviceError stands alone; with one, even an
    // empty one, it is joined with the decoded message
    ensures Lookup(sen.list, "message").None? ==> e == Device(sen)
    ensures Lookup(sen.list, "message").Some? ==>
              e == Joined(Device(sen), Decoded(Lookup(sen.list, "message").value))
  {
    match Lookup(sen.list, "message")
    case Some(msg) => Joined(Device(sen), Decoded(msg))
    case None => Device(sen)
  }

  /** `Reply.processSentence`. */
  function ReplyStep(r: ReplyState, sen: Sentence): Step<ReplyState> {
    if sen.word == ReWord then Step(r.(re := r.re + [sen]), false, None)
    else if sen.word == DoneWord then Step(r.(done := Some(sen)), true, None)
    else if sen.word == TrapWord || sen.word == FatalWord then
      Step(r, sen.word == FatalWord, Some(DeviceErrorOf(sen)))
    else if sen.word == "" then Step(r, false, None)
    else Step(r, true, Some(UnknownReply(sen)))
  }

  /** How the request handler classifies a sentence by its first word. */
  lemma ReplyStepClassifies(r: ReplyState, sen: Sentence)
    ensures var s := ReplyStep(r, sen);
            // a data sentence is kept, in arrival order, and the exchange goes on
            && (sen.word == ReWord ==> s == Step(ReplyState(r.re + [sen], r.done), false, None))
            // the terminal sentence is recorded and ends the exchange cleanly
            && (sen.word == DoneWord ==> s == Step(ReplyState(r.re, Some(sen)), true, None))
            // a trap is an error that does not end the exchange; a fatal ends it
            && (sen.word in {TrapWord, FatalWord} ==>
                  s.state == r && s.finished == (sen.word == FatalWord)
                  && s.err.Some? && AsDevice(s.err.value) == Some(sen))
            // an empty sentence is ignored
            && (sen.word == "" ==> s == Step(r, false, None))
            // anything else, `!empty` included, is an unknown reply that ends it
            && (sen.word !in {ReWord, DoneWord, TrapWord, FatalWord, ""} ==>
                  s == Step(r, true, Some(UnknownReply(sen))))
            // a clean end happens exactly on `!done`
            && (s.finished && s.err.None? <==> sen.word == DoneWord)
            // only `!re` and `!done` change the reply
            && (s.state != r ==> sen.word in {ReWord, DoneWord})
  {
  }

  /** `!empty` is not listed by this handler: it ends a request as unknown. */
  lemma EmptyWordIsUnknownToRequests(r: ReplyState, sen: Sentence)
    requires sen.word == EmptyWord
    ensures ReplyStep(r, sen) == Step(r, true, Some(UnknownReply(sen)))
  {
  }

  /** The text of the data sentences: each rendering followed by a newline. */
  function ReText(re: seq<Sentence>): string {
    if re == [] then "" else ReText(re[..|re| - 1]) + Render(re[|re| - 1]) + "\n"
  }

  /** `Reply.String()`. */
  function Text(r: ReplyState): string {
    ReText(r.re) + (if r.done.Some? then Render(r.done.value) else "")
  }

  /** The text of the first k data sentences begins the text of them all. */
  lemma {:induction false} ReTextPrefix(re: seq<Sentence>, k: nat)
    requires k <= |re|
    ensures var p := ReText(re[..k]);
            |p| <= |ReText(re)| && ReText(re)[..|p|] == p
    decreases |re|
  {
    if k < |re| {
      var n := |re|;
      ReTextPrefix(re[..n - 1], k);
      assert re[..n - 1][..k] == re[..k];
    } else {
      assert re[..k] == re;
    }
  }

  /** In the text of the data sentences the k-th one's rendering stands,
      followed by a newline, right after the text of the sentences before it. */
  lemma ReTextShape(re: seq<Sentence>, k: nat)
    requires k < |re|
    ensures var t := ReText(re);
            var p := |ReText(re[..k])|;
            var q := p + |Render(re[k])|;
            q < |t| && t[p..q] == Render(re[k]) && t[q] == '\n'
  {
    ReTextPrefix(re, k + 1);
    assert re[..k + 1][..k] == re[..k];
    assert ReText(re[..k + 1]) == ReText(re[..k]) + Render(re[k]) + "\n";
    InPrefix(ReText(re), ReText(re[..k]), Render(re[k]));
  }

  /** What stands in a prefix stands in the whole text. */
  lemma InPrefix(t: string, a: string, b: string)
    requires |a + b + "\n"| <= |t| && t[..|a + b + "\n"|] == a + b + "\n"
    ensures |a| + |b| < |t| && t[|a|..|a| + |b|] == b && t[|a| + |b|] == '\n'
  {
    var pre := a + b + "\n";
    assert t[|a|..|a| + |b|] == pre[|a|..|a| + |b|];
    assert t[|a| + |b|] == pre[|a| + |b|];
  }

  /** An empty reply renders as the empty string; the reply of the protocol
      run test renders as that test expects. */
  lemma TextVectors()
    ensures Text(EmptyReply) == ""
    ensures var re := Sentence(ReWord, "", [Pair("address", "1.2.3.4/32")]);
            var done := Sentence(DoneWord, "", []);
            Text(ReplyState([re], Some(done))) == "!re @ [{`address` `1.2.3.4/32`}]\n!done @ []"
  {
    var re := Sentence(ReWord, "", [Pair("address", "1.2.3.4/32")]);
    var done := Sentence(DoneWord, "", []);
    assert [re][..0] == [];
    assert PairsText(re.list) == "{`address` `1.2.3.4/32`}";
    assert Render(re) == "!re @ [{`address` `1.2.3.4/32`}]";
    assert Render(done) == "!done @ []";
    assert ReText([re]) == "!re @ [{`address` `1.2.3.4/32`}]\n";
  }

  /** `Reply`: the data sentences and the terminal sentence of one request,
      filled in place as sentences arrive. */
  class Reply {
    var re: seq<Sentence>
    var done: Option<Sentence>

    function Value(): ReplyState
      reads this
    {
      ReplyState(re, done)
    }

    constructor ()
      ensures Value() == EmptyReply
    {
      re := [];
      done := None;
    }

    /** `processSentence`: returns whether the request is finished, and the
        error the sentence carries. */
    method ProcessSentence(sen: Sentence) returns (finished: bool, err: Option<Error>)
      modifies this
      ensures Step(Value(), finished, err) == ReplyStep(old(Value()), sen)
    {
      if sen.word == ReWord {
        re := re + [sen];
      } else if sen.word == DoneWord {
        done := Some(sen);
        return true, None;
      } else if sen.word == TrapWord || sen.word == FatalWord {
        return sen.word == FatalWord, Some(DeviceErrorOf(sen));
      } else if sen.word == "" {
        // empty sentences are ignored
      } else {
        return true, Some(UnknownReply(sen));
      }
      return false, None;
    }

    /** `String`: every data sentence followed by a newline, then the
        terminal sentence if there is one. */
    method String() returns (s: string)
      ensures s == Text(Value())
    {
      s := "";
      var i := 0;
      while i < |re|
        invariant 0 <= i <= |re|
        invariant s == ReText(re[..i])
      {
        assert re[..i + 1][..i] == re[..i];
        s := s + Render(re[i]) + "\n";
        i := i + 1;
      }
      assert re[..i] == re;
      if done.Some? {
        s := s + Render(done.value);
      }
    }
  }
}

=== FILE: run.dfy ===
/** The synchronous read loop of a request (`runArgsContextSync`, run.go),
    as a function of the sentences the reader will deliver, and its closed
    form: the reply is settled by the first sentence that is not data, a
    trap or empty. */
module Run {
  import opened Prelude
  import opened Sentences
  import opened Errors
  import opened Replies

  /** What a request returns: the reply, or nil, and an error. */
  datatype Outcome = Outcome(reply: Option<ReplyState>, err: Option<Error>)

  /** The read loop from a given reply and last error, over the sentences
      still to be read; once they run out the reader fails with `endErr`.
      Also gives how many reads were made. */
  function SyncRead(input: seq<Sentence>, endErr: Error, out: ReplyState, lastErr: Option<Error>)
    : (r: (Outcome, nat))
    ensures r.1 <= |input| && (input != [] ==> r.1 >= 1)
    decreases |input|
  {
    if input == [] then (Outcome(None, Some(endErr)), 0)
    else
      var st := ReplyStep(out, input[0]);
      if st.err.Some? && st.finished then (Outcome(None, st.err), 1)
      else if st.finished then (Outcome(Some(st.state), lastErr), 1)
      else
        var (o, n) := SyncRead(input[1..], endErr, st.state, if st.err.Some? then st.err else lastErr);
        (o, n + 1)
  }

  /** Sentences after which the loop reads on: data, traps and empty ones. */
  predicate ReadsOn(sen: Sentence) {
    sen.word in {ReWord, TrapWord, ""}
  }

  /** The data sentences among s, in order. */
  function ReOf(s: seq<Sentence>): (r: seq<Sentence>)
    ensures |r| <= |s|
    ensures forall i :: 0 <= i < |r| ==> r[i].word == ReWord
  {
    if s == [] then [] else (if s[0].word == ReWord then [s[0]] else []) + ReOf(s[1..])
  }

  /** The error of the last trap among s, or `init` when there is none. */
  function LastTrap(s: seq<Sentence>, init: Option<Error>): Option<Error> {
    if s == [] then init
    else LastTrap(s[1..], if s[0].word == TrapWord then Some(DeviceErrorOf(s[0])) else init)
  }

  /** The error a terminal sentence other than `!done` ends the request with. */
  function FailureOf(sen: Sentence): Error {
    if sen.word == FatalWord then DeviceErrorOf(sen) else UnknownReply(sen)
  }

  /** The closed form of the read loop, for k the position of the first
      sentence that does not let it read on (|input| when there is none). */
  function ClosedForm(input: seq<Sentence>, endErr: Error, out: ReplyState, lastErr: Option<Error>, k: nat)
    : (Outcome, nat)
    requires k <= |input|
  {
    if k == |input| then (Outcome(None, Some(endErr)), |input|)
    else if input[k].word == DoneWord then
      (Outcome(Some(ReplyState(out.re + ReOf(input[..k]), Some(input[k]))), LastTrap(input[..k], lastErr)), k + 1)
    else (Outcome(None, Some(FailureOf(input[k]))), k + 1)
  }

  /** Closed form of the read loop. Let k be the position of the first
      sentence that does not let it read on. With none, the reader's error
      is returned and every partial result discarded. A `!done` there gives
      the reply holding every data sentence before it, in arrival order,
      with that `!done`, and the error of the last trap before it. Anything
      else there (a fatal or an unknown word) gives no reply and its error. */
  lemma SyncReadClosedForm(input: seq<Sentence>, endErr: Error, out: ReplyState,
                           lastErr: Option<Error>, k: nat)
    requires k <= |input|
    requires forall i :: 0 <= i < k ==> ReadsOn(input[i])
    requires k < |input| ==> !ReadsOn(input[k])
    ensures k == |input| ==>
              SyncRead(input, endErr, out, lastErr) == (Outcome(None, Some(endErr)), |input|)
    ensures k < |input| && input[k].word == DoneWord ==>
              SyncRead(input, endErr, out, lastErr)
              == (Outcome(Some(ReplyState(out.re + ReOf(input[..k]), Some(input[k]))),
                          LastTrap(input[..k], lastErr)), k + 1)
    ensures k < |input| && input[k].word != DoneWord ==>
              SyncRead(input, endErr, out, lastErr) == (Outcome(None, Some(FailureOf(input[k]))), k + 1)
  {
    SyncReadIsClosedForm(input, endErr, out, lastErr, k);
  }

  lemma {:induction false} SyncReadIsClosedForm(input: seq<Sentence>, endErr: Error, out: ReplyState,
                                                lastErr: Option<Error>, k: nat)
    requires k <= |input|
    requires forall i :: 0 <= i < k ==> ReadsOn(input[i])
    requires k < |input| ==> !ReadsOn(input[k])
    ensures SyncRead(input, endErr, out, lastErr) == ClosedForm(input, endErr, out, lastErr, k)
    decreases k
  {
    if k > 0 {
      var st := ReplyStep(out, input[0]);
      var le := if st.err.Some? then st.err else lastErr;
      SyncReadIsClosedForm(input[1..], endErr, st.state, le, k - 1);
      ReadOnStep(input, endErr, out, lastErr);
      ClosedFormStep(input, endErr, out, lastErr, k);
    } else {
      assert input[..k] == [];
      assert out.re + [] == out.re;
    }
  }

  /** The closed form after a sentence that lets the loop read on. */
  lemma ClosedFormStep(input: seq<Sentence>, endErr: Error, out: ReplyState, lastErr: Option<Error>, k: nat)
    requires 0 < k <= |input| && ReadsOn(input[0])
    ensures var st := ReplyStep(out, input[0]);
            var le := if st.err.Some? then st.err else lastErr;
            var (o, n) := ClosedForm(input[1..], endErr, st.state, le, k - 1);
            ClosedForm(input, endErr, out, lastErr, k) == (o, n + 1)
  {
    PrefixStep(input, k, out, lastErr);
    assert input[1..][..k - 1] == input[1..k];
  }

  /** After a sentence that lets it read on, the loop goes on with the rest. */
  lemma ReadOnStep(input: seq<Sentence>, endErr: Error, out: ReplyState, lastErr: Option<Error>)
    requires input != [] && ReadsOn(input[0])
    ensures var st := ReplyStep(out, input[0]);
            var (o, n) := SyncRead(input[1..], endErr, st.state, if st.err.Some? then st.err else lastErr);
            SyncRead(input, endErr, out, lastErr) == (o, n + 1)
  {
  }

  /** The data and the last trap of a prefix, one sentence at a time. */
  lemma PrefixStep(input: seq<Sentence>, k: nat, out: ReplyState, lastErr: Option<Error>)
    requires 0 < k <= |input|
    ensures var st := ReplyStep(out, input[0]);
            var le := if st.err.Some? then st.err else lastErr;
            && (ReadsOn(input[0]) ==> out.re + ReOf(input[..k]) == st.state.re + ReOf(input[1..k]))
            && (ReadsOn(input[0]) ==> LastTrap(input[..k], lastErr) == LastTrap(input[1..k], le))
  {
    assert input[..k][1..] == input[1..k];
    var x := if input[0].word == ReWord then [input[0]] else [];
    assert ReOf(input[..k]) == x + ReOf(input[1..k]);
    assert out.re + (x + ReOf(input[1..k])) == (out.re + x) + ReOf(input[1..k]);
  }

  /** Empty sentences anywhere before the reply change nothing but the
      number of reads. */
  lemma {:induction false} EmptySentenceSkipped(s1: seq<Sentence>, e: Sentence, s2: seq<Sentence>,
                                                endErr: Error, out: ReplyState, lastErr: Option<Error>)
    requires e.word == ""
    ensures SyncRead(s1 + [e] + s2, endErr, out, lastErr).0 == SyncRead(s1 + s2, endErr, out, lastErr).0
    decreases |s1|
  {
    if s1 == [] {
      assert [e] + s2 == s1 + [e] + s2 && s2 == s1 + s2;
      assert ([e] + s2)[1..] == s2;
    } else {
      var st := ReplyStep(out, s1[0]);
      var le := if st.err.Some? then st.err else lastErr;
      assert (s1 + [e] + s2)[0] == s1[0] && (s1 + s2)[0] == s1[0];
      assert (s1 + [e] + s2)[1..] == s1[1..] + [e] + s2;
      assert (s1 + s2)[1..] == s1[1..] + s2;
      EmptySentenceSkipped(s1[1..], e, s2, endErr, st.state, le);
    }
  }

  /** The read loop of the request tests: a trap before `!done` is returned
      beside the reply; a fatal, an unknown word or the end of input give
      no reply. */
  lemma SyncReadVectors(trap: Sentence, re: Sentence, done: Sentence, fatal: Sentence, unknown: Sentence)
    requires trap == Sentence(TrapWord, "", [Pair("message", "Some device error message")])
    requires re == Sentence(ReWord, "", [Pair("address", "1.2.3.4/32")])
    requires done == Sentence(DoneWord, "", [])
    requires fatal == Sentence(FatalWord, "", [Pair("message", "Some device error message")])
    requires unknown == Sentence("!xxx", "", [])
    ensures var (o, _) := SyncRead([trap, done], Eof, EmptyReply, None);
            o.reply == Some(ReplyState([], Some(done))) && o.err.Some?
            && AsDevice(o.err.value) == Some(trap)
            && FetchMessage(trap) == "Some device error message"
    ensures SyncRead([fatal], Eof, EmptyReply, None).0 == Outcome(None, Some(DeviceErrorOf(fatal)))
    ensures SyncRead([unknown], Eof, EmptyReply, None).0 == Outcome(None, Some(UnknownReply(unknown)))
    ensures SyncRead([], Eof, EmptyReply, None).0 == Outcome(None, Some(Eof))
    ensures SyncRead([re], Eof, EmptyReply, None).0 == Outcome(None, Some(Eof))
    ensures SyncRead([Sentence("", "", []), re, done], Eof, EmptyReply, None).0
            == Outcome(Some(ReplyState([re], Some(done))), None)
  {
    assert FetchMessage(trap) == "Some device error message";
    assert [trap, done][1..] == [done];
    assert [re][1..] == [];
    var e := Sentence("", "", []);
    assert [e, re, done][1..] == [re, done] && [re, done][1..] == [done];
    var r1 := ReplyState([re], None);
    assert ReplyStep(EmptyReply, re).state == r1;
    assert SyncRead([done], Eof, r1, None).0 == Outcome(Some(ReplyState([re], Some(done))), None);
    assert SyncRead([re, done], Eof, EmptyReply, None).0 == Outcome(Some(ReplyState([re], Some(done))), None);
  }
}

=== FILE: sentence.dfy ===
/** The parsed sentence (`proto.Sentence`) as the engine sees it: its first
    word, its `.tag=` value and its ordered attribute list. The `Map` view is
    derived from the list, the last value of a key winning. The parser is not
    part of this model; the rendering follows the format the tests print. */
module Sentences {
  import opened Prelude

  datatype Pair = Pair(key: string, value: string)

  datatype Sentence = Sentence(word: string, tag: string, list: seq<Pair>)

  /** `sen.Map[key]` with its presence flag: the value of the LAST pair with
      this key, or None when no pair has it. */
  function Lookup(list: seq<Pair>, key: string): (r: Option<string>)
    ensures r.None? <==> forall i :: 0 <= i < |list| ==> list[i].key != key
    ensures r.Some? ==> exists i :: 0 <= i < |list| && list[i] == Pair(key, r.value)
                                    && forall j :: i < j < |list| ==> list[j].key != key
  {
    if list == [] then None
    else if list[|list| - 1].key == key then Some(list[|list| - 1].value)
    else Lookup(list[..|list| - 1], key)
  }

  /** `sen.Map[key]` as Go reads a map: the empty string when absent. */
  function Get(sen: Sentence, key: string): (v: string)
    ensures v != "" ==> Lookup(sen.list, key) == Some(v)
    ensures Lookup(sen.list, key).None? ==> v == ""
    ensures Lookup(sen.list, key).Some? ==> v == Lookup(sen.list, key).value
  {
    match Lookup(sen.list, key)
    case Some(v) => v
    case None => ""
  }

  function PairText(p: Pair): string {
    "{`" + p.key + "` `" + p.value + "`}"
  }

  function PairsText(list: seq<Pair>): string {
    if list == [] then ""
    else if |list| == 1 then PairText(list[0])
    else PairText(list[0]) + " " + PairsText(list[1..])
  }

  /** `sen.String()`: `WORD @TAG [{`k` `v`} ...]`. */
  function Render(sen: Sentence): (s: string)
    ensures |s| > |sen.word| && s[..|sen.word|] == sen.word
  {
    sen.word + " @" + sen.tag + " [" + PairsText(sen.list) + "]"
  }
}

=== FILE: wire.dfy ===
/** The write side of the wire codec (proto/writer.go): the length prefix of
    a word, the framing of words and sentences, and the Writer with its
    sticky error. A reference decoder for the length prefix, following the
    reader's test vectors, is the partner of the encoder. */
module Wire {
  import opened Prelude
  import opened Errors

  /** 256 to the power k. */
  function Pow256(k: nat): (p: nat)
    ensures p >= 1
  {
    if k == 0 then 1 else 0x100 * Pow256(k - 1)
  }

  /** `encodeLength(l)`. In the four short forms the high bits of the first
      byte are clear before the marker is or-ed in, so `|` is `+` there. */
  function EncodeLength(l: nat): (r: seq<byte>)
    ensures l < 0x80 <==> |r| == 1
    ensures 0x80 <= l < 0x4000 <==> |r| == 2
    ensures 0x4000 <= l < 0x200000 <==> |r| == 3
    ensures 0x200000 <= l < 0x10000000 <==> |r| == 4
    ensures 0x10000000 <= l <==> |r| == 5
    // the first byte names the length class by its high bits
    ensures |r| == 1 ==> r[0] < 0x80
    ensures |r| == 2 ==> 0x80 <= r[0] < 0xC0
    ensures |r| == 3 ==> 0xC0 <= r[0] < 0xE0
    ensures |r| == 4 ==> 0xE0 <= r[0] < 0xF0
    ensures |r| == 5 ==> r[0] == 0xF0
    // the other bytes are the low-order bytes of l, most significant first
    ensures forall i :: 1 <= i < |r| ==> r[i] == (l / Pow256(|r| - 1 - i)) % 0x100
  {
    if l < 0x80 then [l]
    else if l < 0x4000 then [Byte(l / 0x100) + 0x80, Byte(l)]
    else if l < 0x200000 then [Byte(l / 0x10000) + 0xC0, Byte(l / 0x100), Byte(l)]
    else if l < 0x10000000 then
      [Byte(l / 0x1000000) + 0xE0, Byte(l / 0x10000), Byte(l / 0x100), Byte(l)]
    else [0xF0, Byte(l / 0x1000000), Byte(l / 0x10000), Byte(l / 0x100), Byte(l)]
  }

  /** A reference decoder of a length prefix, as the reader's test vectors
      read it: the length and the number of bytes the prefix used, or None
      when the input is too short or the first byte names no length class. */
  function DecodeLength(bs: seq<byte>): (r: Option<(nat, nat)>)
    ensures r.Some? ==> 1 <= r.value.1 <= 5 && r.value.1 <= |bs|
  {
    if |bs| == 0 then None
    else
      var b0: int := bs[0];
      if b0 < 0x80 then Some((b0, 1))
      else if b0 < 0xC0 then
        if |bs| < 2 then None else Some(((b0 - 0x80) * 0x100 + bs[1], 2))
      else if b0 < 0xE0 then
        if |bs| < 3 then None
        else Some(((b0 - 0xC0) * 0x10000 + (bs[1] as int) * 0x100 + bs[2], 3))
      else if b0 < 0xF0 then
        if |bs| < 4 then None
        else Some(((b0 - 0xE0) * 0x1000000 + (bs[1] as int) * 0x10000 + (bs[2] as int) * 0x100 + bs[3], 4))
      else if b0 == 0xF0 then
        if |bs| < 5 then None
        else Some(((bs[1] as int) * 0x1000000 + (bs[2] as int) * 0x10000 + (bs[3] as int) * 0x100 + bs[4], 5))
      else None
  }

  /** Shifting by 16 and by 24 bits is shifting by 8 bits two and three times. */
  lemma ShiftSteps(x: nat)
    ensures x / 0x10000 == (x / 0x100) / 0x100
    ensures x / 0x1000000 == (x / 0x10000) / 0x100
  {
  }

  /** A number below 2^32 is the sum of its four bytes at their weights. */
  lemma BytesOf(l: nat)
    requires l < 0x1_0000_0000
    ensures l == Byte(l / 0x1000000) * 0x1000000 + Byte(l / 0x10000) * 0x10000
                 + Byte(l / 0x100) * 0x100 + Byte(l)
    ensures l / 0x1000000 < 0x100
  {
    ShiftSteps(l);
    var q1 := l / 0x100;
    var q2 := q1 / 0x100;
    var q3 := q2 / 0x100;
    assert l == q1 * 0x100 + Byte(l);
    assert q1 == q2 * 0x100 + Byte(q1);
    assert q2 == q3 * 0x100 + Byte(q2);
  }

  /** Round trip: every length below 2^32 is read back from its prefix,
      whatever bytes follow it. */
  lemma EncodeLengthRoundTrip(l: nat, rest: seq<byte>)
    requires l < 0x1_0000_0000
    ensures DecodeLength(EncodeLength(l) + rest) == Some((l, |EncodeLength(l)|))
  {
    var e := EncodeLength(l);
    var bs := e + rest;
    assert bs[..|e|] == e;
    BytesOf(l);
    ShiftSteps(l);
  }

  /** Lengths of 2^32 and more lose their high bits in the 5-byte form. */
  lemma EncodeLengthWraps(l: nat)
    requires l >= 0x10000000
    ensures EncodeLength(l + 0x1_0000_0000) == EncodeLength(l)
  {
    var m := l + 0x1_0000_0000;
    Shifted(l);
    LowByte(l, 0x100_0000);
    LowByte(l / 0x100, 0x1_0000);
    LowByte(l / 0x10000, 0x100);
    LowByte(l / 0x1000000, 1);
  }

  /** Adding 2^32 adds whole multiples of 256 at every shift. */
  lemma Shifted(l: nat)
    ensures (l + 0x1_0000_0000) / 0x100 == l / 0x100 + 0x100_0000
    ensures (l + 0x1_0000_0000) / 0x10000 == l / 0x10000 + 0x1_0000
    ensures (l + 0x1_0000_0000) / 0x1000000 == l / 0x1000000 + 0x100
  {
  }

  /** Adding a multiple of 256 keeps the low byte. */
  lemma LowByte(x: nat, k: nat)
    ensures Byte(x + k * 0x100) == Byte(x)
  {
  }

  /** The byte vectors of the writer's tests. */
  lemma EncodeLengthVectors()
    ensures EncodeLength(0x01) == [0x01]
    ensures EncodeLength(0x87) == [0x80, 0x87]
    ensures EncodeLength(0x4321) == [0xC0, 0x43, 0x21]
    ensures EncodeLength(0x2acdef) == [0xE0, 0x2a, 0xcd, 0xef]
    ensures EncodeLength(0x10000080) == [0xF0, 0x10, 0x00, 0x00, 0x80]
  {
  }

  /** One framed word: its length prefix, then its bytes. */
  function EncodeWord(word: seq<byte>): seq<byte> {
    EncodeLength(|word|) + word
  }

  /** The bytes of the given words, each framed, without the terminator. */
  function EncodeWords(words: seq<string>): seq<byte> {
    if words == [] then [] else EncodeWord(Utf8(words[0])) + EncodeWords(words[1..])
  }

  /** A whole sentence on the wire: its framed words and the zero-length
      terminating word. */
  function EncodeSentence(words: seq<string>): seq<byte> {
    EncodeWords(words) + [0x00]
  }

  /** The state of a Writer together with its underlying io.Writer. That
      io.Writer is a sink that takes `room` more bytes; a write larger than
      that stores what fits and reports `failure`. */
  datatype WriterState = WriterState(out: seq<byte>, room: nat, failure: Error, err: Option<Error>)

  /** One call of the underlying io.Writer's Write. */
  function Emit(st: WriterState, p: seq<byte>): (r: (WriterState, Option<Error>)) {
    if |p| <= st.room then (st.(out := st.out + p, room := st.room - |p|), None)
    else (st.(out := st.out + p[..st.room], room := 0), Some(st.failure))
  }

  /** `writeBytes`: nothing once an error is recorded; otherwise write the
      length, then the word, recording the first failure. */
  function PutBytes(st: WriterState, word: seq<byte>): WriterState {
    if st.err.Some? then st
    else
      var (s1, e1) := Emit(st, EncodeLength(|word|));
      if e1.Some? then s1.(err := e1)
      else
        var (s2, e2) := Emit(s1, word);
        if e2.Some? then s2.(err := e2) else s2
  }

  /** `WriteWord` of each word in turn. */
  function PutWords(st: WriterState, words: seq<string>): WriterState
    decreases words
  {
    if words == [] then st else PutWords(PutBytes(st, Utf8(words[0])), words[1..])
  }

  /** Sticky error: once recorded, writing changes nothing. */
  lemma PutBytesSticky(st: WriterState, word: seq<byte>)
    requires st.err.Some?
    ensures PutBytes(st, word) == st
  {
  }

  /** Without a recorded error, the framed word is passed to the sink: all
      of it when it fits, and then no error is recorded; otherwise the part
      that fits, and the sink's failure is recorded. */
  lemma PutBytesAppends(st: WriterState, word: seq<byte>)
    requires st.err.None?
    ensures var r := PutBytes(st, word);
            var e := EncodeWord(word);
            && r.failure == st.failure
            && (|e| <= st.room ==> r.out == st.out + e && r.room == st.room - |e| && r.err.None?)
            && (|e| > st.room ==> r.out == st.out + e[..st.room] && r.room == 0 && r.err == Some(st.failure))
  {
    var e := EncodeWord(word);
    var n := |EncodeLength(|word|)|;
    assert e[..n] == EncodeLength(|word|);
    if n <= st.room && |e| > st.room {
      assert e[..st.room] == EncodeLength(|word|) + word[..st.room - n];
    }
  }

  /** The sticky error only ever goes from none to the sink's failure. */
  lemma {:induction false} PutWordsError(st: WriterState, words: seq<string>)
    decreases words
    ensures var r := PutWords(st, words);
            && r.failure == st.failure
            && (st.err.Some? ==> r == st)
            && (r.err.Some? && st.err.None? ==> r.err == Some(st.failure))
  {
    if words != [] {
      var s1 := PutBytes(st, Utf8(words[0]));
      if st.err.None? { PutBytesAppends(st, Utf8(words[0])); }
      PutWordsError(s1, words[1..]);
    }
  }

  /** Writing words to a healthy writer with room for all of them puts their
      framed bytes, in order, on the wire and records no error. */
  lemma {:induction false} PutWordsFits(st: WriterState, words: seq<string>)
    decreases words
    requires st.err.None? && |EncodeWords(words)| <= st.room
    ensures var r := PutWords(st, words);
            r.err.None? && r.out == st.out + EncodeWords(words)
            && r.room == st.room - |EncodeWords(words)| && r.failure == st.failure
  {
    if words != [] {
      var w := Utf8(words[0]);
      PutBytesAppends(st, w);
      var s1 := PutBytes(st, w);
      PutWordsFits(s1, words[1..]);
      assert st.out + EncodeWord(w) + EncodeWords(words[1..]) == st.out + EncodeWords(words);
    }
  }

  /** EndSentence writes exactly one zero-length word: the single byte 0. */
  lemma EndSentenceWritesTerminator(st: WriterState)
    requires st.err.None? && st.room >= 1
    ensures PutBytes(st, Utf8("")) == st.(out := st.out + [0x00], room := st.room - 1)
  {
    PutBytesAppends(st, []);
  }

  /** A sentence written in full to a writer with room for it: its framed
      words followed by the terminator, and no error. */
  lemma SentenceFits(st: WriterState, words: seq<string>)
    requires st.err.None? && |EncodeSentence(words)| <= st.room
    ensures var r := PutBytes(PutWords(st, words), Utf8(""));
            r.err.None? && r.out == st.out + EncodeSentence(words)
  {
    PutWordsFits(st, words);
    EndSentenceWritesTerminator(PutWords(st, words));
  }

  /** proto.Writer: words go to the underlying sink; the first failure is
      kept in `err` and stops every later write. */
  class Writer {
    var out: seq<byte>
    var room: nat
    const failure: Error
    var err: Option<Error>

    function State(): WriterState
      reads this
    {
      WriterState(out, room, failure, err)
    }

    /** `NewWriter(w)` over a sink that takes `room` bytes. */
    constructor (room: nat, failure: Error)
      ensures State() == WriterState([], room, failure, None)
    {
      this.out := [];
      this.room := room;
      this.failure := failure;
      this.err := None;
    }

    /** The underlying io.Writer's Write. */
    method Send(p: seq<byte>) returns (e: Option<Error>)
      modifies this
      ensures (State(), e) == Emit(old(State()), p)
    {
      if |p| <= room {
        out, room := out + p, room - |p|;
        e := None;
      } else {
        out, room := out + p[..room], 0;
        e := Some(failure);
      }
    }

    /** `writeBytes`. */
    method WriteBytes(word: seq<byte>)
      modifies this
      ensures State() == PutBytes(old(State()), word)
    {
      if err.Some? {
        return;
      }
      var e := Send(EncodeLength(|word|));
      if e.Some? {
        err := e;
        return;
      }
      e := Send(word);
      if e.Some? {
        err := e;
        return;
      }
    }

    /** `WriteWord`: the word's UTF-8 bytes. */
    method WriteWord(word: string)
      modifies this
      ensures State() == PutBytes(old(State()), Utf8(word))
    {
      WriteBytes(Utf8(word));
    }

    /** `WriteWord` for each word, in order (the loops of the callers). */
    method WriteWords(words: seq<string>)
      modifies this
      ensures State() == PutWords(old(State()), words)
    {
      var i := 0;
      while i < |words|
        invariant 0 <= i <= |words|
        invariant PutWords(State(), words[i..]) == PutWords(old(State()), words)
      {
        assert words[i..][1..] == words[i + 1..];
        WriteWord(words[i]);
        i := i + 1;
      }
    }

    /** `EndSentence`: the empty word, then the recorded error. */
    method EndSentence() returns (e: Option<Error>)
      modifies this
      ensures State() == PutBytes(old(State()), Utf8(""))
      ensures e == err
    {
      WriteWord("");
      e := err;
    }
  }
}
